=== FILE: README.md ===
# Ethos profile comparison — a Dafny model of its data layer and UI rules

The application compares two accounts of the Ethos reputation network side by
side. Its data layer (`src/services/ethosApi.ts`) resolves a Twitter handle to
one normalised `EthosUser` and answers typeahead searches. Both go through a
five-minute profile cache and a thirty-second search cache. When the network
is unavailable, resolution falls back to a placeholder user. The same file
derives the display metrics: review breakdown, vote totals and XP level.

Around it sit a few components with real decision logic:
- the comparison page's metric rows, bar scale and colours;
- the two search widgets' keyboard machines;
- the two-username form;
- the comparison image's file name and share link;
- the two diagnostic panels that merge a fetched user with a picked entry.

This project models all of that as immutable datatypes and total functions:

- Upstream replies, the clock and every `Math.random()` draw are parameters.
  An HTTP reply is `Reply<T> = Delivered(body) | TransportError`.
- Each UI handler is a transition from state to state. The transition also
  names what it sets off: a search, a lookup, or handing a profile to the
  parent.
- `Array.prototype.sort` is modelled as a stable insertion sort over a
  lexicographic rank (`Ordering`). The source's comparators are proved to
  agree with that rank.

Modules, one per source unit:

| module | models |
|---|---|
| `Values`, `Text` | JS truthiness (`x \|\| d`), `toLowerCase`/`toUpperCase` on ASCII, `trim` with the JS white-space set, `startsWith`, `includes` |
| `Types`, `Upstream` | `src/types/index.ts` shapes; the v1 search and v2 user records as they arrive |
| `TtlCache` | `getCachedData`, `setCachedData`, `clearCache`, and the search cache |
| `ProfileResolver` | `getUserByTwitterUsername` |
| `SearchProfiles`, `Ordering` | `searchProfiles` |
| `Metrics` | `calculateUserMetrics`, activity vote totals, the XP level |
| `ComparisonView`, `SelectionIndex`, `SearchDropdown`, `SearchOverlay`, `UserInputForm`, `ImageGenerator`, `ProfileSearch`, `SimpleUserTest` | the components of the same names |

Behaviour worth noting, as the code has it:

- The placeholder user's numbers are `Math.random()` draws. The draws are
  parameters, and each is reduced into its `Math.floor(Math.random() * N)` range.
- The tier (`level`) comes from the score lookup keyed by `userkey`, and
  defaults to `"neutral"` when that lookup fails or has no level.
- Each field comes from one record. `score`, `displayName`, `avatar` and
  `bio` come from the v1 search record. `xp`, `xpStreak`, followers and
  `stats` come from the v2 user record.
- De-duplication of search entries compares usernames case-sensitively.
- The enrichment calls run one after the other. The tier reply and the v2
  reply are independent inputs, so the order does not matter here.
- `username`, `twitterUsername` and `displayName` of the normalised user are
  copied from the v1 record and may be `undefined`. They are `Option`s here,
  because the image panel reads them without a fallback.
- ETH amounts go through `parseFloat`. The model divides exactly, as rationals.

## Model

| member | source | states |
|---|---|---|
| TtlCache.Get | src/services/ethosApi.ts:30-36 | a read yields a value exactly when the key is present and stored less than the duration ago, and then it is the stored value |
| TtlCache.Put | src/services/ethosApi.ts:39-41 | a write adds exactly its key |
| TtlCache.ReadBack | src/services/ethosApi.ts:26-41 | a written value reads back while `now - storedAt < duration`, and is absent afterwards |
| TtlCache.ExpiresAtBound | src/services/ethosApi.ts:26-36 | the bound is strict: present one millisecond before the duration, absent at it |
| TtlCache.ExpiredIsKept | src/services/ethosApi.ts:30-36 | an expired entry reads as absent but stays in the map (lazy eviction) |
| TtlCache.LastWriteWins | src/services/ethosApi.ts:39-41 | two writes to a key are one write of the second value |
| TtlCache.PutOtherKey | src/services/ethosApi.ts:39-41 | a write leaves every other key's reading unchanged |
| TtlCache.ClearEmpties | src/services/ethosApi.ts:44-47 | after `clearCache` every key reads as absent |
| TtlCache.ProfileKeySharedByCase | src/services/ethosApi.ts:64 | two handles share a profile key exactly when they are equal ignoring case |
| TtlCache.ProfileKeyPrefix | src/services/ethosApi.ts:64 | a profile key starts with `user_`, so it never collides with the `xp_`/`score_` keys |
| ProfileResolver.ExactMatches | src/services/ethosApi.ts:86-88 | the exact matches are exactly the values whose username equals the handle ignoring case |
| ProfileResolver.ExactMatchesAppend | src/services/ethosApi.ts:86-88 | the filter distributes over concatenation, so it keeps response order |
| ProfileResolver.FirstWithProfileId | src/services/ethosApi.ts:93 | `find`: the first index with a truthy profile id, or -1 when none has one |
| ProfileResolver.ChooseCandidate | src/services/ethosApi.ts:93-95 | the chosen candidate is one of the response values |
| ProfileResolver.CandidateSelection | src/services/ethosApi.ts:86-95 | first exact match with a profile id; else the highest-scored exact match, earliest on ties; else `values[0]` |
| ProfileResolver.NoExactMatchPicksFirst | src/services/ethosApi.ts:95 | without any exact match the first value is returned, not an error |
| ProfileResolver.ProfileIdBeatsScore | src/services/ethosApi.ts:93-95 | a profile id outranks a higher score |
| ProfileResolver.TierLevel | src/services/ethosApi.ts:100-110 | the tier is looked up only with a truthy userkey, and a failed or skipped lookup leaves `"neutral"` |
| ProfileResolver.FirstV2Match | src/services/ethosApi.ts:118-124 | the v2 record used is the first whose username equals the chosen username ignoring case; none if no record matches |
| ProfileResolver.DetailMatchesCandidate | src/services/ethosApi.ts:113-130 | enrichment runs only with a truthy userkey, and a v2 record is used only when its name matches |
| ProfileResolver.NormalizeDefaults | src/services/ethosApi.ts:133-169 | score is v1 or 0; xp, streak and followers are v2 or 0; stats are v2 or all-zero counts; a generated userkey starts `user_`; username and handle are the v1 username and the display name the v1 name, each possibly missing |
| ProfileResolver.MockUserShape | src/services/ethosApi.ts:187-222 | the placeholder has the input as username, display name and handle, userkey `mock_` + input, level `"neutral"`, and every number within its draw range |
| ProfileResolver.MockScoreRange | src/services/ethosApi.ts:196 | every placeholder score in [0, 1000) is reachable |
| ProfileResolver.Resolve | src/services/ethosApi.ts:63-227 | a fresh cache entry is returned without a request; otherwise the fetched user is cached and returned, and always reads back |
| ProfileResolver.FailedSearchYieldsMock | src/services/ethosApi.ts:176-227 | an empty, not-ok or failed search never rejects: it yields the placeholder user |
| ProfileResolver.SecondCallHitsCache | src/services/ethosApi.ts:64-73 | a second resolution of any case variant within five minutes makes no request and returns the same user |
| ProfileResolver.ClearForcesSearch | src/services/ethosApi.ts:44-47 | after `clearCache` resolution always consults the network |
| SearchProfiles.MapRecord | src/services/ethosApi.ts:798-809 | a mapped entry's username is the value's username, or empty when it has none |
| SearchProfiles.MapRecords | src/services/ethosApi.ts:798-809 | the mapping is pointwise, with the k-th random draw used as the k-th fallback id |
| SearchProfiles.FindName | src/services/ethosApi.ts:813 | `findIndex`: the first index with that username, or -1 exactly when there is none |
| SearchProfiles.Dedup | src/services/ethosApi.ts:812-828 | the result has pairwise distinct usernames, only input entries, and the same set of usernames as the input |
| SearchProfiles.DedupPrefersProfileId | src/services/ethosApi.ts:820-824 | if any entry of a username has a truthy id, the kept entry for it has one |
| SearchProfiles.DedupKeepsFirstWhenIdsTruthy | src/services/ethosApi.ts:799-828 | when every id is truthy (the random fallback is almost surely non-zero) the first occurrence of each username is kept |
| SearchProfiles.Filter | src/services/ethosApi.ts:833-846 | an entry is kept exactly when its lower-cased username or display name starts with the lower-cased query, or its description contains it |
| SearchProfiles.FilterDistinct | src/services/ethosApi.ts:833-846 | filtering preserves distinct usernames |
| SearchProfiles.ComparatorIsRank | src/services/ethosApi.ts:852-867 | the sort comparator is negative, positive or zero exactly when the rank says before, after or tied |
| SearchProfiles.Take | src/services/ethosApi.ts:868 | `slice(0, 10)` is the prefix of length at most 10 |
| SearchProfiles.MissingUsernameFails | src/services/ethosApi.ts:833-846 | the filter's `profile.username.toLowerCase()` throws, and the search answers `[]`, exactly when some value has no username |
| SearchProfiles.CandidatesDistinct | src/services/ethosApi.ts:812-846 | the candidates to sort have distinct usernames |
| SearchProfiles.RankingsProperties | src/services/ethosApi.ts:798-868 | at most 10 entries, distinct usernames, all matching and mapped from upstream values; exact first, then profile id first, then non-increasing score; a matching entry is dropped only from a full page of entries ranked no later |
| SearchProfiles.Search | src/services/ethosApi.ts:775-885 | a query under 3 characters answers `[]` with no request; only queries over 20 characters read or write the cache; a failed or empty reply answers `[]` and writes nothing |
| SearchProfiles.SearchPageBound | src/services/ethosApi.ts:868-875 | an answer and every cached page have at most 10 entries |
| SearchProfiles.RepeatLongQueryHitsCache | src/services/ethosApi.ts:781-786 | a long query is answered from the cache, for any case variant, for thirty seconds |
| SearchProfiles.ShortQueryIgnoresCache | src/services/ethosApi.ts:781-782 | a query of 3 to 20 characters never reads the cache |
| Ordering.SortMultiset | src/services/ethosApi.ts:851-868 | sorting is a permutation |
| Ordering.SortSorted | src/services/ethosApi.ts:851-868 | the sorted sequence is ordered by the rank |
| Ordering.SortStable | src/services/ethosApi.ts:851-868 | entries of equal rank keep their relative order |
| Ordering.SortHead | src/services/ethosApi.ts:94 | the head of the sort is a minimum, and the first minimum of the input |
| Ordering.SortDistinct | src/services/ethosApi.ts:851-868 | sorting keeps distinct keys distinct |
| Metrics.MetricsFromStats | src/services/ethosApi.ts:565-589 | the received total is the sum of the three polarities; followers, yaps, given reviews and votes are 0 |
| Metrics.MetricsFromStatsHeadline | src/services/ethosApi.ts:570-574 | score, XP total and streak are the record's, a missing one reading 0 |
| Metrics.MetricsFromStatsDefaults | src/services/ethosApi.ts:566-585 | without statistics every review count, vouch count and ETH amount is 0 |
| Metrics.MetricsFromStatsCounts | src/services/ethosApi.ts:576-585 | the review counts are the received polarities, the vouch counts the record's, and each ETH amount times 10^18 is its wei total |
| Metrics.BreakdownCounts | src/services/ethosApi.ts:604-611 | the fold counts each polarity's occurrences; its total is the number of reviews plus the reviews rated `"total"` |
| Metrics.BreakdownTotal | src/services/ethosApi.ts:604-611 | when every rating is a polarity, the total equals the number of reviews and the sum of the polarities |
| Metrics.MetricsFromLookups | src/services/ethosApi.ts:591-630 | counts are the lengths of the lookups' lists, and the review total is as the fold gives it |
| Metrics.TallyRecoversCounts | src/services/ethosApi.ts:536-537 | up and down votes can be recovered from total and net, and the net is bounded by the total |
| Metrics.XpFrom | src/services/ethosApi.ts:287-294 | a number reply is the total and anything else gives total 0; the level is the total divided by 1000, rounded down |
| Metrics.LevelMonotone | src/services/ethosApi.ts:294 | the level is monotone and rises by one per 1000 XP |
| ComparisonView.ValueForMetric | src/components/ComparisonView.tsx:216-262 | every metric value is non-negative |
| ComparisonView.UnknownLabelReadsZero | src/components/ComparisonView.tsx:254-255 | a label naming none of the fifteen metrics reads 0 for every user |
| ComparisonView.TotalsAreSums | src/components/ComparisonView.tsx:216-262 | each "Total Reviews" value is the sum of its three polarity values, and without statistics every metric but score, XP and streak reads 0 |
| ComparisonView.MissingStatsReadZero | src/components/ComparisonView.tsx:224-253 | without statistics, each review, vouch and ETH metric reads 0 |
| ComparisonView.StatisticsAgreeWithLookup | src/components/ComparisonView.tsx:380-396 | every row's value equals the lookup by its own label, and every row's scale is positive |
| ComparisonView.RelativeScaleBounds | src/components/ComparisonView.tsx:213-268 | with both users each bar fills 0 to 100 percent, the larger value exactly 100; both zero falls back to the fixed scale |
| ComparisonView.MissingUserFixedScale | src/components/ComparisonView.tsx:214 | with a user missing the scale is the fixed one |
| ComparisonView.BandMonotone | src/components/ComparisonView.tsx:144-148 | the bands are monotone in the percentage and bounded at 80 and 20 |
| ComparisonView.BothLoadedColor | src/components/ComparisonView.tsx:195-202 | with both users, grey exactly on a draw and black otherwise, independent of side and symmetric in the users |
| ComparisonView.SingleUserColor | src/components/ComparisonView.tsx:142-149 | with a user missing, transparent exactly for 0, otherwise the percentage band |
| ComparisonView.StarBracket | src/components/ComparisonView.tsx:287-293 | a score falls into one of five brackets |
| ComparisonView.StarColorPartition | src/components/ComparisonView.tsx:287-293 | five distinct colours, one per bracket, monotone in the score |
| ComparisonView.LevelLabel | src/components/ComparisonView.tsx:442 | a missing or empty level shows "User"; otherwise the first character upper-cased and the rest kept |
| ComparisonView.LevelLabelRecoversLevel | src/components/ComparisonView.tsx:442 | lower-casing the label of a tier name without capitals gives the name back, and labelling a label changes nothing |
| ComparisonView.ClearUser | src/components/ComparisonView.tsx:110-120 | the cleared side is empty and the other side and the overlay are unchanged |
| ComparisonView.ClearUserCommutes | src/components/ComparisonView.tsx:110-120 | clearing is idempotent, and the sides clear independently |
| ComparisonView.OpenOverlay | src/components/ComparisonView.tsx:122-125 | the sheet opens for the given side and the panels are untouched |
| ComparisonView.CloseOverlay | src/components/ComparisonView.tsx:127-130 | the sheet closes without a side and the panels are untouched |
| ComparisonView.OverlayTargetsSelection | src/components/ComparisonView.tsx:122-138 | a pick after opening the sheet for a side looks up the profile for that side; after closing, a pick does nothing |
| ComparisonView.HandleProfileSelect | src/components/ComparisonView.tsx:132-138 | with no overlay target nothing happens; otherwise only the target side starts loading, and a lookup of the picked username starts |
| ComparisonView.SelectThenLoad | src/components/ComparisonView.tsx:84-108 | a loaded user replaces the side's user; a rejection keeps it and records the message |
| SelectionIndex.MovesKeepInRange | src/components/SearchDropdown.tsx:100-108 | ArrowDown and ArrowUp keep the index in [-1, len-1] |
| SelectionIndex.MovesInverse | src/components/SearchDropdown.tsx:100-108 | down then up, and up then down, return to the start inside the list |
| SelectionIndex.DownFromNone | src/components/SearchDropdown.tsx:102-104 | n presses of ArrowDown from -1 reach row n-1, stopping at the last row |
| SearchDropdown.InputChanged | src/components/SearchDropdown.tsx:79-94 | the typed text becomes the query, and a search of it is scheduled after 150 ms when at least 3 characters long, else at once |
| SearchDropdown.TypedQueryIsSearched | src/components/SearchDropdown.tsx:43-94 | the scheduled search searches the typed text exactly when it has at least 3 characters, and the Search button then looks that text up |
| SearchDropdown.PerformSearch | src/components/SearchDropdown.tsx:43-59 | a query under 3 characters empties and closes the list without a search; a longer one opens it and searches |
| SearchDropdown.DelayOnlyBeforeSearch | src/components/SearchDropdown.tsx:89-91 | the delay is 150 exactly when a search follows, and 0 otherwise |
| SearchDropdown.SuggestionsArrived | src/components/SearchDropdown.tsx:63-66 | a current answer replaces the list and resets the index to -1; an aborted one changes nothing |
| SearchDropdown.SelectProfile | src/components/SearchDropdown.tsx:151-156 | the query becomes the username, the list closes, the index resets, and the parent gets the profile |
| SearchDropdown.ClosedIgnoresKeys | src/components/SearchDropdown.tsx:97 | keys do nothing while the list is closed |
| SearchDropdown.KeysKeepIndexInRange | src/components/SearchDropdown.tsx:96-125 | every key keeps an in-range index in range and never changes the list |
| SearchDropdown.EnterSelectsHighlightedRow | src/components/SearchDropdown.tsx:110-118 | Enter picks `results[idx]` exactly when `0 <= idx < len`; otherwise it runs the exact search |
| SearchDropdown.EscapeCloses | src/components/SearchDropdown.tsx:119-122 | Escape closes the list and resets the index |
| SearchDropdown.FirstExact | src/components/SearchDropdown.tsx:133-135 | `find`: the first result whose username equals the query ignoring case, or none exactly when no result does |
| SearchDropdown.ExactSearchOutcome | src/components/SearchDropdown.tsx:127-149 | a profile is selected exactly when some result matches the query ignoring case; otherwise the results are shown |
| SearchDropdown.EnabledButtonSearches | src/components/SearchDropdown.tsx:158-162 | the Search button is enabled only for a query of at least 3 characters, and it then searches |
| SearchDropdown.ClickOutside | src/components/SearchDropdown.tsx:32-37 | a press outside closes the list and clears the highlight, keeping query and rows |
| SearchDropdown.ClickOutsideLikeEscape | src/components/SearchDropdown.tsx:32-37 | on an open list a press outside is Escape; afterwards keys are ignored until focus reopens the list, with nothing highlighted |
| SearchDropdown.Focus | src/components/SearchDropdown.tsx:174-178 | focus reopens the list only for a long enough query with results |
| SearchOverlay.QueryChanged | src/components/SearchOverlay.tsx:51-68 | a blank query clears the rows and schedules nothing; any other is searched after 200 ms |
| SearchOverlay.BlankQuerySearchesNothing | src/components/SearchOverlay.tsx:52-55 | a query of white space alone, of any length, searches nothing |
| SearchOverlay.SearchStarted | src/components/SearchOverlay.tsx:57-58 | the delayed search shows loading and keeps query, rows and highlight |
| SearchOverlay.SearchRoundTrip | src/components/SearchOverlay.tsx:57-67 | once the answer (or the empty list of a failed search) arrives, the search leaves no trace but the new rows |
| SearchOverlay.ResultsArrived | src/components/SearchOverlay.tsx:60-61 | an answer replaces the rows and keeps the highlight |
| SearchOverlay.SelectProfile | src/components/SearchOverlay.tsx:88-94 | selection clears the query and rows, resets the index and hands the profile to the parent |
| SearchOverlay.ArrowsKeepIndexInRange | src/components/SearchOverlay.tsx:73-81 | the arrow keys keep an in-range index in range while the rows are unchanged |
| SearchOverlay.BoundedAgreesInRange | src/components/SearchOverlay.tsx:73-86 | with the index in range, the corrected handler and the handler as written agree |
| SearchOverlay.EnterAfterShorterAnswerPicksUndefined | src/components/SearchOverlay.tsx:60-85 | as written: two rows, ArrowDown twice, an answer of one row, then Enter hands `undefined` to the parent |
| SearchOverlay.EnterPicksOnlyListedRows | src/components/SearchOverlay.tsx:82-85 | corrected: Enter picks a profile exactly when a listed row is highlighted, and it is that row |
| SearchOverlay.ScoreColorIsStarColor | src/components/SearchOverlay.tsx:165-169 | the row score colours equal the comparison page's star colours for every score |
| UserInputForm.ValidIff | src/components/UserInputForm.tsx:14-35 | valid exactly when both trimmed names are non-empty and differ ignoring case |
| UserInputForm.TooShortUnreachable | src/components/UserInputForm.tsx:17-27 | the "at least 1 character" message never appears |
| UserInputForm.DifferentOverrides | src/components/UserInputForm.tsx:23-31 | equal names, even two blank ones, put "must be different" on the second field; different names never do |
| UserInputForm.FirstErrorIsLocal | src/components/UserInputForm.tsx:17-21 | the first field's error depends only on the first field |
| UserInputForm.ValiditySymmetric | src/components/UserInputForm.tsx:14-35 | validity does not depend on the order of the names |
| UserInputForm.Submit | src/components/UserInputForm.tsx:37-43 | the errors are shown, and the trimmed names are compared exactly when the form is valid |
| UserInputForm.SubmittedPairIsClean | src/components/UserInputForm.tsx:37-43 | what is compared is two trimmed, non-empty names that differ ignoring case |
| UserInputForm.Swap | src/components/UserInputForm.tsx:45-50 | the names change places and the errors clear |
| UserInputForm.SwapInvolution | src/components/UserInputForm.tsx:45-50 | swapping twice restores the names and never changes validity |
| UserInputForm.DisabledOnlyBlocksInvalid | src/components/UserInputForm.tsx:125 | a disabled button, when not loading, blocks only forms that would fail |
| ImageGenerator.Abbreviate | src/components/ComparisonImageGenerator.tsx:17-24 | suffix `m` exactly from 1,000,000, `k` exactly from 1000 below that, none below 1000 |
| ImageGenerator.AbbreviateScales | src/components/ComparisonImageGenerator.tsx:17-24 | the scaled value times its suffix's factor is the number; a `k` value lies in [1, 1000) |
| ImageGenerator.KeyStatsAgreeWithPage | src/components/ComparisonImageGenerator.tsx:26-33 | total reviews, received ETH and score equal the comparison page's rows; without statistics both are 0 |
| ImageGenerator.Sanitize | src/components/ComparisonImageGenerator.tsx:58 | the result is no longer and holds only ASCII letters and digits |
| ImageGenerator.SanitizeAppend | src/components/ComparisonImageGenerator.tsx:58 | sanitizing distributes over concatenation, so kept characters stay in order |
| ImageGenerator.SanitizeKeepsAlnum | src/components/ComparisonImageGenerator.tsx:58 | a name of letters and digits is kept whole |
| ImageGenerator.SanitizeIdempotent | src/components/ComparisonImageGenerator.tsx:58 | sanitizing is idempotent |
| ImageGenerator.FilenameRoundTrip | src/components/ComparisonImageGenerator.tsx:58 | the file name `ethos-comparison-<s1>-vs-<s2>.png` parses back to exactly the two sanitized names |
| ImageGenerator.ShareQueryRoundTrip | src/components/ComparisonImageGenerator.tsx:76 | for handles in `[A-Za-z0-9_]`, form-urlencoded parsing of the share query, as the comparison page reads it with `URLSearchParams`, gives back `user1` and `user2` |
| ImageGenerator.Download | src/components/ComparisonImageGenerator.tsx:37-66 | a download happens exactly when the panel is mounted and both users are loaded with usernames; a missing user gives the "loaded" toast, a missing username the failure toast of the `catch` |
| ImageGenerator.Share | src/components/ComparisonImageGenerator.tsx:69-76 | sharing happens exactly when both users are loaded, otherwise the "loaded" toast |
| ImageGenerator.DownloadNamesBothUsers | src/components/ComparisonImageGenerator.tsx:58 | the downloaded image's name parses back to both sanitised usernames |
| ImageGenerator.DownloadWithoutUsernameFails | src/components/ComparisonImageGenerator.tsx:43-66 | a user without a username makes the download fail with the failure toast |
| ImageGenerator.ShareNamesBothUsers | src/components/ComparisonImageGenerator.tsx:76 | for usernames in `[A-Za-z0-9_]`, the share link reads back as both usernames, a missing one as the text `undefined` |
| ProfileSearch.Merge | src/components/ProfileSearch.tsx:64-94 | the level is never empty and the review total is the sum of the three polarities |
| ProfileSearch.MergePrefersFetched | src/components/ProfileSearch.tsx:65-73 | each field is the fetched value exactly when truthy, else the picked entry's; a fetched score of 0 falls back |
| ProfileSearch.MergeFalsyOnlyWhenBothFalsy | src/components/ProfileSearch.tsx:65-73 | a merged field is empty or 0 only when both sources are |
| ProfileSearch.MergeLevelAndBio | src/components/ProfileSearch.tsx:66-72 | the level defaults to "neutral" and the biography to "" |
| ProfileSearch.MergeStatistics | src/components/ProfileSearch.tsx:75-93 | the review counts are the user's, missing as 0, and the total matches the comparison image; vouch amounts scale back to wei |
| ProfileSearch.BeginSelect | src/components/ProfileSearch.tsx:53-60 | a selection bumps the search key by exactly 1 and clears the record and the error before fetching |
| ProfileSearch.Select | src/components/ProfileSearch.tsx:53-101 | after a selection the page is not loading, has no error, and keeps the picked entry |
| ProfileSearch.SelectShowsResolvedUser | src/components/ProfileSearch.tsx:62-94 | the record shown is the merge of the user resolved for the picked username, which is then cached |
| ProfileSearch.KeysCountSelections | src/components/ProfileSearch.tsx:57 | n selections move the key by exactly n, so the search box is remounted each time |
| SimpleUserTest.FirstNonEmpty | src/components/SimpleUserTest.tsx:52-56 | the first non-empty name of a chain, or "" exactly when all are empty |
| SimpleUserTest.NameFallbackChains | src/components/SimpleUserTest.tsx:52-56 | the display name and handle each take the first non-empty of their own field, the username and the typed name; with a typed name they are never empty |
| SimpleUserTest.ProcessDefaults | src/components/SimpleUserTest.tsx:49-55 | score and XP as fetched, level "neutral", avatar and bio "" by default, and level and bio as on the profile search page |
| SimpleUserTest.FetchUser | src/components/SimpleUserTest.tsx:22-61 | a blank name is a no-op; otherwise the record is shown without error |
| SimpleUserTest.FetchBypassesCache | src/components/SimpleUserTest.tsx:31-37 | a fetch always reaches the network and leaves exactly one cache entry |
| SimpleUserTest.FetchIgnoresPriorCache | src/components/SimpleUserTest.tsx:31-37 | what is shown does not depend on the cache beforehand |
| SimpleUserTest.EnabledButtonFetches | src/components/SimpleUserTest.tsx:91 | an enabled button always fetches, and a disabled one only blocks blank names |
| Text.TrimEmptyIff | src/components/SearchOverlay.tsx:52 | `trim()` is empty exactly when every character is JS white space |
| Text.TrimIdempotent | src/components/UserInputForm.tsx:41 | trimming twice is trimming once |
| Text.ContainsIff | src/services/ethosApi.ts:843 | `includes` holds exactly when the text occurs at some position |
| Text.LowerIdempotent | src/services/ethosApi.ts:64 | lower-casing twice is lower-casing once |

## Left out

- HTTP, axios timeouts, endpoint URL building and logging: replies are inputs.
- `AbortController` and `setTimeout`: only the delay chosen and whether an answer is stale are modelled; interleavings of overlapping requests are not.
- The sequential loading of `user1`/`user2` from the page URL, with its one-second retry in `ComparisonView`.
- html2canvas rendering, `toDataURL`, `window.open`, toasts and `document` listeners: browser calls; the download and share actions are effects naming their file name, query or toast message. A rejection of html2canvas itself, which would also reach the failure toast, is not modelled.
- The tweet text built around the share link (which prints display names and handles, `undefined` when missing) is not modelled; only the link's query is.
- Floating-point behaviour: `parseFloat(wei) / 1e18` is exact rational division; `toFixed`, `toLocaleString` and bar widths as text are not modelled.
- Metrics.XpFrom: takes whole numbers only, where the source accepts any JavaScript number as the XP total (a fractional total such as 1500.5, still level 1, or NaN); it is part of the floating-point behaviour above.
- ImageGenerator.Abbreviate: gives the scaled value and suffix, not the `toFixed(2)` text.
- ImageGenerator.ShareQueryRoundTrip: assumes handles made of ASCII letters, digits and `_`; percent-decoding of form-urlencoded parsing is not modelled, and such handles contain no `%` or `+`.
- ImageGenerator.ShareNamesBothUsers: the same restriction to `[A-Za-z0-9_]` usernames; the link interpolates usernames without encoding them, so one holding `&`, `=`, `+` or `%` would not read back as itself, and that case is not stated.
- The mock generators (`getUserScore`, the review, vouch, vote and activity mocks, `getUserContributions`) and the other lookups whose only logic is a mock fallback.
- The `catch` branches of `ProfileSearch` and `SimpleUserTest`: resolution never rejects (it falls back to the placeholder user), so the error text is never set.
- The comparison page's rejected lookup (`FinishSelect` with `Rejected`) is modelled as a case with its message as an input. Resolution itself never rejects, but the search sheet's `undefined` pick (see Findings) makes `profile.username` throw inside the page's `try`, which lands there; the text of that TypeError is not modelled.
- Metrics.MetricsFromStats: models the record `calculateUserMetrics` is handed as `StatsCarrier`; its only caller, `getCompleteUserProfile`, is not part of this model.
- ComparisonView.LevelLabel: upper-cases the first character with the ASCII mapping and keeps the length, where JavaScript's `toUpperCase` maps every Unicode letter and can lengthen it ("ß" becomes "SS"); the tier names are ASCII.
- Text.Lower: maps only the ASCII letters, where JavaScript's `toLowerCase` maps every Unicode letter and can lengthen a string ("İ" becomes two code units); non-ASCII case variants ("ÉLO" and "élo") count as different in the model.
- Text.SameIgnoringCase: inherits the ASCII-only mapping, so the name match of the resolver, the form's "must be different" rule, the dropdown's exact match and the cache keys of `TtlCache.ProfileKey` treat non-ASCII case variants as different; SearchProfiles.Filter likewise drops "Élodie" for the query "élo".
- SearchProfiles.Search: lengths count code points, not UTF-16 code units, so for a query with characters outside the Basic Multilingual Plane ("a😀": 2 here, 3 in JavaScript) the 3- and 20-character gates can decide differently.
- SearchDropdown.PerformSearch: the same code-point length under the 3-character gate and the Search button's rule.
- `ProfileCard`, `MetricCard`, `ui/button` and `App`: presentation only.
- `src/types/index.ts` has no behaviour, and its shapes are the datatypes of `Types` with two differences. The `createdAt` and `updatedAt` timestamps of a user (set from the clock when a user is built) are left out, because nothing reads them. A typeahead entry's `displayName` and `avatarUrl` are "" where the source copies a missing `name` or `avatar` as `undefined`; every reader either falls back with `||` or only renders them.

## Findings

| source | as written | input that shows it | evidently intended | confidence | as-written member | corrected member |
|---|---|---|---|---|---|---|
| src/components/SearchOverlay.tsx:60-85 | Enter selects `results[selectedIndex]` whenever `selectedIndex >= 0`, and a new answer replaces `results` without resetting `selectedIndex` | rows `[p1, p2]`, ArrowDown twice (index 1), an answer of one row `[p1]`, Enter: the parent receives `undefined` and the comparison page's lookup of `profile.username` throws | Enter selects only when `0 <= selectedIndex < results.length`, as the search dropdown does | not executed | SearchOverlay.KeyDownAsWritten, SearchOverlay.EnterAfterShorterAnswerPicksUndefined | SearchOverlay.KeyDown, SearchOverlay.EnterPicksOnlyListedRows |

=== FILE: cache.dfy ===
/**
  The in-memory time-to-live caches of the data layer: the user cache (five
  minutes) and the search cache (thirty seconds).

  A cache is a map from key to the stored value and the clock reading when it
  was stored; the clock (`Date.now()`) is an explicit argument. Reads filter
  expired entries without removing them.
 */
module TtlCache {
  import opened Values
  import opened Text

  datatype Entry<V> = Entry(data: V, timestamp: int)

  type Cache<V> = map<string, Entry<V>>

  /** Lifetime of a user-cache entry: five minutes, in milliseconds. */
  const CacheDuration: int := 5 * 60 * 1000

  /** Lifetime of a search-cache entry: thirty seconds, in milliseconds. */
  const SearchCacheDuration: int := 30 * 1000

  /** An entry is fresh while strictly less than `ttl` has elapsed since it was stored. */
  predicate Fresh<V>(e: Entry<V>, now: int, ttl: int) {
    now - e.timestamp < ttl
  }

  /** `getCachedData` / `getCachedSearch`: the stored value while it is fresh, otherwise nothing. */
  function Get<V>(c: Cache<V>, key: string, now: int, ttl: int): (r: Option<V>)
    ensures r.Some? <==> key in c && Fresh(c[key], now, ttl)
    ensures r.Some? ==> r.value == c[key].data
  {
    if key in c && Fresh(c[key], now, ttl) then Some(c[key].data) else None
  }

  /** `setCachedData` / `setCachedSearch`: store `data` under `key`, stamped with `now`. */
  function Put<V>(c: Cache<V>, key: string, data: V, now: int): (c': Cache<V>)
    ensures c'.Keys == c.Keys + {key}
  {
    c[key := Entry(data, now)]
  }

  /** `clearCache` / `clearSearchCache`. */
  function Clear<V>(): Cache<V> {
    map[]
  }

  /** The user-cache key of a handle: `"user_"` followed by the lower-cased handle. */
  function ProfileKey(handle: string): string {
    "user_" + Lower(handle)
  }

  /** The search-cache key of a query: the lower-cased query. */
  function SearchKey(query: string): string {
    Lower(query)
  }

  /** A value read back after a write is the written value exactly while the write is fresh. */
  lemma ReadBack<V>(c: Cache<V>, key: string, data: V, stored: int, now: int, ttl: int)
    ensures Get(Put(c, key, data, stored), key, now, ttl) == (if now - stored < ttl then Some(data) else None)
  {
  }

  /** The freshness bound is strict: at exactly `ttl` after the write the entry reads as absent. */
  lemma ExpiresAtBound<V>(c: Cache<V>, key: string, data: V, stored: int, ttl: int)
    ensures Get(Put(c, key, data, stored), key, stored + ttl - 1, ttl) == Some(data)
    ensures Get(Put(c, key, data, stored), key, stored + ttl, ttl) == None
  {
  }

  /** An expired entry reads as absent, but stays in the map. */
  lemma ExpiredIsKept<V>(c: Cache<V>, key: string, now: int, ttl: int)
    requires key in c && !Fresh(c[key], now, ttl)
    ensures Get(c, key, now, ttl) == None
    ensures key in c
  {
  }

  /** Last write wins: an earlier write to the same key is invisible. */
  lemma LastWriteWins<V>(c: Cache<V>, key: string, d1: V, t1: int, d2: V, t2: int)
    ensures Put(Put(c, key, d1, t1), key, d2, t2) == Put(c, key, d2, t2)
  {
  }

  /** A write to one key leaves every other key's reads unchanged. */
  lemma PutOtherKey<V>(c: Cache<V>, key: string, other: string, data: V, stored: int, now: int, ttl: int)
    requires other != key
    ensures Get(Put(c, key, data, stored), other, now, ttl) == Get(c, other, now, ttl)
  {
  }

  /** After a clear every key reads as absent. */
  lemma ClearEmpties<V>(key: string, now: int, ttl: int)
    ensures Get(Clear<V>(), key, now, ttl) == None
  {
  }

  /** Two handles share a user-cache entry exactly when they are equal ignoring case. */
  lemma ProfileKeySharedByCase(a: string, b: string)
    ensures ProfileKey(a) == ProfileKey(b) <==> SameIgnoringCase(a, b)
  {
    if ProfileKey(a) == ProfileKey(b) {
      assert Lower(a) == ProfileKey(a)[5..];
      assert Lower(b) == ProfileKey(b)[5..];
    }
  }

  /** User-cache keys never collide with the `score_` and `xp_` keys the other lookups use. */
  lemma ProfileKeyPrefix(handle: string)
    ensures StartsWith(ProfileKey(handle), "user_")
    ensures !StartsWith(ProfileKey(handle), "xp_") && !StartsWith(ProfileKey(handle), "score_")
  {
    assert ProfileKey(handle)[..5] == "user_";
    assert ProfileKey(handle)[0] == 'u';
  }
}

=== FILE: comparison_view.dfy ===
/**
  The comparison page: the metric values shown for each user, the scale of
  each progress bar, the bar colours, the score-star colours, the level
  label, and the state transitions of the two panels and the search overlay.

  Metric values are exact rationals; the page computes them in floating
  point.
 */
module ComparisonView {
  import opened Values
  import opened Text
  import opened Types

  // ---------------------------------------------------------------------------
  // Metric values
  // ---------------------------------------------------------------------------

  const EthosScoreLabel: string := "Ethos Score"
  const TotalXpLabel: string := "Total XP"
  const XpStreakLabel: string := "XP Streak Days"
  const TotalReceivedLabel: string := "Total Reviews\n(Received)"
  const PositiveReceivedLabel: string := "Positive Reviews\n(Received)"
  const NeutralReceivedLabel: string := "Neutral Reviews\n(Received)"
  const NegativeReceivedLabel: string := "Negative Reviews\n(Received)"
  const TotalGivenLabel: string := "Total Reviews\n(Given)"
  const PositiveGivenLabel: string := "Positive Reviews\n(Given)"
  const NeutralGivenLabel: string := "Neutral Reviews\n(Given)"
  const NegativeGivenLabel: string := "Negative Reviews\n(Given)"
  const VouchesGivenLabel: string := "Vouches\n(Given)"
  const VouchesReceivedLabel: string := "Vouches\n(Received)"
  const EthGivenLabel: string := "ETH Vouch\n(Given)"
  const EthReceivedLabel: string := "ETH Vouch\n(Received)"

  /** The labels of the fifteen metrics the page compares. */
  predicate IsMetricLabel(metric: string) {
    || metric == EthosScoreLabel || metric == TotalXpLabel || metric == XpStreakLabel
    || metric == TotalReceivedLabel || metric == PositiveReceivedLabel
    || metric == NeutralReceivedLabel || metric == NegativeReceivedLabel
    || metric == TotalGivenLabel || metric == PositiveGivenLabel
    || metric == NeutralGivenLabel || metric == NegativeGivenLabel
    || metric == VouchesGivenLabel || metric == VouchesReceivedLabel
    || metric == EthGivenLabel || metric == EthReceivedLabel
  }

  /** `getValueForMetric`: the value of the metric with this label; an unknown label is 0. */
  function ValueForMetric(u: EthosUser, metric: string): (v: real)
    ensures v >= 0.0
  {
    var rc := ReceivedCounts(u.stats);
    var gc := GivenCounts(u.stats);
    if metric == EthosScoreLabel then u.score as real
    else if metric == TotalXpLabel then u.xp as real
    else if metric == XpStreakLabel then u.xpStreak as real
    else if metric == TotalReceivedLabel then PolaritySum(rc) as real
    else if metric == PositiveReceivedLabel then rc.positive as real
    else if metric == NeutralReceivedLabel then rc.neutral as real
    else if metric == NegativeReceivedLabel then rc.negative as real
    else if metric == TotalGivenLabel then PolaritySum(gc) as real
    else if metric == PositiveGivenLabel then gc.positive as real
    else if metric == NeutralGivenLabel then gc.neutral as real
    else if metric == NegativeGivenLabel then gc.negative as real
    else if metric == VouchesGivenLabel then VouchGiven(u.stats).count as real
    else if metric == VouchesReceivedLabel then VouchReceived(u.stats).count as real
    else if metric == EthGivenLabel then WeiToEth(VouchGiven(u.stats).amountWeiTotal)
    else if metric == EthReceivedLabel then WeiToEth(VouchReceived(u.stats).amountWeiTotal)
    else 0.0
  }

  /** A label that names none of the fifteen metrics reads 0, whoever the user. */
  lemma UnknownLabelReadsZero(u: EthosUser, metric: string)
    requires !IsMetricLabel(metric)
    ensures ValueForMetric(u, metric) == 0.0
  {
  }

  /** Both "Total Reviews" values are the sums of their three polarity values, and missing statistics read as 0. */
  lemma TotalsAreSums(u: EthosUser)
    ensures ValueForMetric(u, TotalReceivedLabel)
         == ValueForMetric(u, PositiveReceivedLabel) + ValueForMetric(u, NeutralReceivedLabel)
            + ValueForMetric(u, NegativeReceivedLabel)
    ensures ValueForMetric(u, TotalGivenLabel)
         == ValueForMetric(u, PositiveGivenLabel) + ValueForMetric(u, NeutralGivenLabel)
            + ValueForMetric(u, NegativeGivenLabel)
    ensures u.stats.None? ==> forall metric ::
      (metric != EthosScoreLabel && metric != TotalXpLabel && metric != XpStreakLabel) ==> ValueForMetric(u, metric) == 0.0
  {
    if u.stats.None? {
      forall metric | metric != EthosScoreLabel && metric != TotalXpLabel && metric != XpStreakLabel
        ensures ValueForMetric(u, metric) == 0.0
      {
        MissingStatsReadZero(u, metric);
      }
    }
  }

  /** Without statistics, every metric but the score and the two XP rows reads 0. */
  lemma MissingStatsReadZero(u: EthosUser, metric: string)
    requires u.stats.None?
    requires metric != EthosScoreLabel && metric != TotalXpLabel && metric != XpStreakLabel
    ensures ValueForMetric(u, metric) == 0.0
  {
    assert ReceivedCounts(u.stats) == Polarity(0, 0, 0) && GivenCounts(u.stats) == Polarity(0, 0, 0);
    assert VouchGiven(u.stats) == VouchSide(0, 0) && VouchReceived(u.stats) == VouchSide(0, 0);
    WeiToEthZero();
  }

  /** One row of a user's statistics card. */
  datatype Stat = Stat(name: string, value: real, maxValue: real, showStar: bool)

  /** The statistics card of one user, in display order, with each row's fixed scale. */
  function Statistics(u: EthosUser): seq<Stat> {
    var rc := ReceivedCounts(u.stats);
    var gc := GivenCounts(u.stats);
    [ Stat(EthosScoreLabel, u.score as real, 2000.0, true),
      Stat(TotalXpLabel, u.xp as real, 100000.0, false),
      Stat(XpStreakLabel, u.xpStreak as real, 365.0, false),
      Stat(TotalReceivedLabel, (rc.positive + rc.neutral + rc.negative) as real, 1000.0, false),
      Stat(PositiveReceivedLabel, rc.positive as real, 500.0, false),
      Stat(NeutralReceivedLabel, rc.neutral as real, 200.0, false),
      Stat(NegativeReceivedLabel, rc.negative as real, 100.0, false),
      Stat(TotalGivenLabel, (gc.positive + gc.neutral + gc.negative) as real, 1000.0, false),
      Stat(PositiveGivenLabel, gc.positive as real, 500.0, false),
      Stat(NeutralGivenLabel, gc.neutral as real, 200.0, false),
      Stat(NegativeGivenLabel, gc.negative as real, 100.0, false),
      Stat(VouchesGivenLabel, VouchGiven(u.stats).count as real, 500.0, false),
      Stat(VouchesReceivedLabel, VouchReceived(u.stats).count as real, 500.0, false),
      Stat(EthGivenLabel, WeiToEth(VouchGiven(u.stats).amountWeiTotal), 100.0, false),
      Stat(EthReceivedLabel, WeiToEth(VouchReceived(u.stats).amountWeiTotal), 100.0, false) ]
  }

  /**
    The value a row displays is the value the colour and scale computations
    look up under the row's label, and every scale is positive.
   */
  lemma StatisticsAgreeWithLookup(u: EthosUser)
    ensures |Statistics(u)| == 15
    ensures forall i :: 0 <= i < |Statistics(u)| ==>
      Statistics(u)[i].value == ValueForMetric(u, Statistics(u)[i].name) && Statistics(u)[i].maxValue > 0.0
  {
    FirstRowsAgree(u);
    MiddleRowsAgree(u);
    LastRowsAgree(u);
  }

  /** Rows 0 to 4 of the card show the lookup's values for their labels. */
  lemma FirstRowsAgree(u: EthosUser)
    ensures Statistics(u)[0].name == EthosScoreLabel && Statistics(u)[0].value == ValueForMetric(u, EthosScoreLabel)
    ensures Statistics(u)[1].name == TotalXpLabel && Statistics(u)[1].value == ValueForMetric(u, TotalXpLabel)
    ensures Statistics(u)[2].name == XpStreakLabel && Statistics(u)[2].value == ValueForMetric(u, XpStreakLabel)
    ensures Statistics(u)[3].name == TotalReceivedLabel && Statistics(u)[3].value == ValueForMetric(u, TotalReceivedLabel)
    ensures Statistics(u)[4].name == PositiveReceivedLabel && Statistics(u)[4].value == ValueForMetric(u, PositiveReceivedLabel)
  {
  }

  /** Rows 5 to 9 likewise. */
  lemma MiddleRowsAgree(u: EthosUser)
    ensures Statistics(u)[5].name == NeutralReceivedLabel && Statistics(u)[5].value == ValueForMetric(u, NeutralReceivedLabel)
    ensures Statistics(u)[6].name == NegativeReceivedLabel && Statistics(u)[6].value == ValueForMetric(u, NegativeReceivedLabel)
    ensures Statistics(u)[7].name == TotalGivenLabel && Statistics(u)[7].value == ValueForMetric(u, TotalGivenLabel)
    ensures Statistics(u)[8].name == PositiveGivenLabel && Statistics(u)[8].value == ValueForMetric(u, PositiveGivenLabel)
    ensures Statistics(u)[9].name == NeutralGivenLabel && Statistics(u)[9].value == ValueForMetric(u, NeutralGivenLabel)
  {
  }

  /** Rows 10 to 14 likewise. */
  lemma LastRowsAgree(u: EthosUser)
    ensures Statistics(u)[10].name == NegativeGivenLabel && Statistics(u)[10].value == ValueForMetric(u, NegativeGivenLabel)
    ensures Statistics(u)[11].name == VouchesGivenLabel && Statistics(u)[11].value == ValueForMetric(u, VouchesGivenLabel)
    ensures Statistics(u)[12].name == VouchesReceivedLabel && Statistics(u)[12].value == ValueForMetric(u, VouchesReceivedLabel)
    ensures Statistics(u)[13].name == EthGivenLabel && Statistics(u)[13].value == ValueForMetric(u, EthGivenLabel)
    ensures Statistics(u)[14].name == EthReceivedLabel && Statistics(u)[14].value == ValueForMetric(u, EthReceivedLabel)
  {
  }

  // ---------------------------------------------------------------------------
  // Bar scale and colour
  // ---------------------------------------------------------------------------

  function Max(a: real, b: real): real {
    if a >= b then a else b
  }

  /**
    `getRelativeMaxValue`: with both users loaded, the larger of their values
    when that is positive; otherwise the row's fixed scale.
   */
  function RelativeMax(u1: Option<EthosUser>, u2: Option<EthosUser>, metric: string, maxValue: real): real {
    if u1.None? || u2.None? then maxValue
    else
      var m := Max(ValueForMetric(u1.value, metric), ValueForMetric(u2.value, metric));
      if m > 0.0 then m else maxValue
  }

  /** The bar's fill, in percent of the scale; 0 when the scale is not positive. */
  function Percentage(value: real, scale: real): real {
    if scale > 0.0 then value / scale * 100.0 else 0.0
  }

  /**
    With both users loaded, each user's bar is scaled against the larger
    value: it fills between 0 and 100 percent, the larger value fills exactly
    100, and when both are 0 the fixed scale applies.
   */
  lemma RelativeScaleBounds(u1: EthosUser, u2: EthosUser, metric: string, maxValue: real)
    requires maxValue > 0.0
    ensures var v1 := ValueForMetric(u1, metric);
            var v2 := ValueForMetric(u2, metric);
            var r := RelativeMax(Some(u1), Some(u2), metric, maxValue);
            && r > 0.0
            && 0.0 <= Percentage(v1, r) <= 100.0
            && 0.0 <= Percentage(v2, r) <= 100.0
            && (v1 >= v2 && v1 > 0.0 ==> Percentage(v1, r) == 100.0)
            && (v1 == 0.0 && v2 == 0.0 ==> r == maxValue)
  {
    var v1 := ValueForMetric(u1, metric);
    var v2 := ValueForMetric(u2, metric);
    var r := RelativeMax(Some(u1), Some(u2), metric, maxValue);
    if Max(v1, v2) > 0.0 {
      PercentageOfLarger(v1, r);
      PercentageOfLarger(v2, r);
    }
  }

  lemma PercentageOfLarger(v: real, r: real)
    requires 0.0 <= v <= r && r > 0.0
    ensures 0.0 <= Percentage(v, r) <= 100.0
    ensures v == r ==> Percentage(v, r) == 100.0
  {
    var q := v / r;
    assert q * r == v;
    assert q <= 1.0;
  }

  /** Without two users the scale is always the fixed one. */
  lemma MissingUserFixedScale(u1: Option<EthosUser>, u2: Option<EthosUser>, metric: string, maxValue: real)
    requires u1.None? || u2.None?
    ensures RelativeMax(u1, u2, metric, maxValue) == maxValue
  {
  }

  datatype Side = Left | Right

  const Transparent: string := "bg-transparent"
  const Excellent: string := "bg-performance-excellent"
  const Good: string := "bg-performance-good"
  const Average: string := "bg-performance-average"
  const Poor: string := "bg-performance-poor"
  const Critical: string := "bg-performance-critical"
  const Draw: string := "bg-gray-400"
  const Differ: string := "bg-black"

  /** The five bands of the single-user colouring, checked from the top. */
  function Band(percentage: real): string {
    if percentage >= 80.0 then Excellent
    else if percentage >= 60.0 then Good
    else if percentage >= 40.0 then Average
    else if percentage >= 20.0 then Poor
    else Critical
  }

  /** The position of a band, from 0 (critical) to 4 (excellent). */
  function BandLevel(color: string): int {
    if color == Excellent then 4
    else if color == Good then 3
    else if color == Average then 2
    else if color == Poor then 1
    else 0
  }

  /** A higher percentage never gets a lower band, and each band covers its 20-point interval. */
  lemma BandMonotone(p: real, q: real)
    requires p <= q
    ensures BandLevel(Band(p)) <= BandLevel(Band(q))
    ensures Band(p) == Excellent <==> p >= 80.0
    ensures Band(p) == Critical <==> p < 20.0
  {
  }

  /** `getPerformanceColor`. The side is a parameter of the source function, and unused. */
  function PerformanceColor(u1: Option<EthosUser>, u2: Option<EthosUser>, percentage: real, value: real,
                            metric: string, side: Side): string {
    if u1.None? || u2.None? then
      if value == 0.0 then Transparent else Band(percentage)
    else if ValueForMetric(u1.value, metric) == ValueForMetric(u2.value, metric) then Draw
    else Differ
  }

  /**
    With both users loaded the colour is grey exactly on a draw and black
    otherwise, whatever the side, percentage or value, and swapping the users
    changes nothing: both cards agree.
   */
  lemma BothLoadedColor(u1: EthosUser, u2: EthosUser, percentage: real, value: real, metric: string, side: Side,
                        percentage': real, value': real, side': Side)
    ensures var c := PerformanceColor(Some(u1), Some(u2), percentage, value, metric, side);
      && (c == Draw <==> ValueForMetric(u1, metric) == ValueForMetric(u2, metric))
      && (c == Draw || c == Differ)
      && c == PerformanceColor(Some(u2), Some(u1), percentage', value', metric, side')
  {
  }

  /** With a user missing, a zero value is transparent and any other value takes its percentage band. */
  lemma SingleUserColor(u1: Option<EthosUser>, u2: Option<EthosUser>, percentage: real, value: real,
                        metric: string, side: Side)
    requires u1.None? || u2.None?
    ensures var c := PerformanceColor(u1, u2, percentage, value, metric, side);
      && (c == Transparent <==> value == 0.0)
      && (value != 0.0 ==> c == Band(percentage))
  {
  }

  // ---------------------------------------------------------------------------
  // Score star
  // ---------------------------------------------------------------------------

  /** The five star colours, from the lowest bracket to the highest. */
  const StarPalette: seq<string> := ["#b72c37", "#c29011", "#c1c0b6", "#117f31", "#7a5eaf"]

  /** `getStarColor`: the colour of the score's bracket. */
  function StarColor(score: int): string {
    if score >= 2000 then "#7a5eaf"
    else if score >= 1600 then "#117f31"
    else if score >= 1200 then "#c1c0b6"
    else if score >= 800 then "#c29011"
    else "#b72c37"
  }

  /** The bracket of a score: 0 below 800, then one more at each of 800, 1200, 1600 and 2000. */
  function StarBracket(score: int): (b: nat)
    ensures b < |StarPalette|
  {
    if score >= 2000 then 4 else if score >= 1600 then 3 else if score >= 1200 then 2
    else if score >= 800 then 1 else 0
  }

  /**
    The star colours partition the scores into five brackets with distinct
    colours, and a higher score never falls into a lower bracket.
   */
  lemma StarColorPartition(a: int, b: int)
    ensures StarColor(a) == StarPalette[StarBracket(a)]
    ensures forall i, j :: 0 <= i < j < |StarPalette| ==> StarPalette[i] != StarPalette[j]
    ensures StarColor(a) == StarColor(b) <==> StarBracket(a) == StarBracket(b)
    ensures a <= b ==> StarBracket(a) <= StarBracket(b)
  {
  }

  // ---------------------------------------------------------------------------
  // Level metric
  // ---------------------------------------------------------------------------

  /** The level under the user's name: its first character upper-cased, or "User" when there is none. */
  function LevelLabel(level: Option<string>): (r: string)
    ensures level.None? || level.value == "" ==> r == "User"
    ensures level.Some? && level.value != "" ==>
      |r| == |level.value| && r[0] == UpperChar(level.value[0]) && r[1..] == level.value[1..]
  {
    if level.Some? && level.value != "" then [UpperChar(level.value[0])] + level.value[1..] else "User"
  }

  /**
    Lower-casing the label of a tier name without capitals gives the name
    back, and labelling a label changes nothing.
   */
  lemma LevelLabelRecoversLevel(level: string)
    requires level != ""
    requires forall i :: 0 <= i < |level| ==> !IsAsciiUpper(level[i])
    ensures Lower(LevelLabel(Some(level))) == level
    ensures LevelLabel(Some(LevelLabel(Some(level)))) == LevelLabel(Some(level))
  {
    var r := LevelLabel(Some(level));
    forall i | 0 <= i < |level|
      ensures Lower(r)[i] == level[i]
    {
      if i > 0 {
        assert r[i] == r[1..][i - 1] == level[1..][i - 1] == level[i];
      }
    }
  }

  // ---------------------------------------------------------------------------
  // Page state
  // ---------------------------------------------------------------------------

  /** One side of the page. */
  datatype Panel = Panel(user: Option<EthosUser>, loading: bool, error: Option<string>)

  datatype PageState = PageState(left: Panel, right: Panel, overlayOpen: bool, overlayTarget: Option<Side>)

  function PanelOf(s: PageState, side: Side): Panel {
    if side == Left then s.left else s.right
  }

  function WithPanel(s: PageState, side: Side, p: Panel): PageState {
    if side == Left then s.(left := p) else s.(right := p)
  }

  const EmptyPanel: Panel := Panel(None, false, None)

  /** `clearUser`: the side loses its user, loading flag and error; nothing else changes. */
  function ClearUser(s: PageState, side: Side): (s': PageState)
    ensures PanelOf(s', side) == EmptyPanel
    ensures forall other :: other != side ==> PanelOf(s', other) == PanelOf(s, other)
    ensures s'.overlayOpen == s.overlayOpen && s'.overlayTarget == s.overlayTarget
  {
    WithPanel(s, side, EmptyPanel)
  }

  /** Clearing twice is clearing once, and clearing both sides in either order agrees. */
  lemma ClearUserCommutes(s: PageState)
    ensures ClearUser(ClearUser(s, Left), Left) == ClearUser(s, Left)
    ensures ClearUser(ClearUser(s, Left), Right) == ClearUser(ClearUser(s, Right), Left)
  {
  }

  /** `openOverlay`: the sheet opens for one side; the panels stay. */
  function OpenOverlay(s: PageState, target: Side): (s': PageState)
    ensures s'.overlayOpen && s'.overlayTarget == Some(target)
    ensures s'.left == s.left && s'.right == s.right
  {
    s.(overlayOpen := true, overlayTarget := Some(target))
  }

  /** `closeOverlay`: the sheet closes and forgets its side; the panels stay. */
  function CloseOverlay(s: PageState): (s': PageState)
    ensures !s'.overlayOpen && s'.overlayTarget.None?
    ensures s'.left == s.left && s'.right == s.right
  {
    s.(overlayOpen := false, overlayTarget := None)
  }

  /** A lookup the page starts: the side it will fill and the handle to resolve. */
  datatype Fetch = Fetch(side: Side, handle: string)

  datatype Dispatch = Dispatch(state: PageState, fetch: Option<Fetch>)

  /** The start of `handleUser1Select` / `handleUser2Select`: the side is loading and its error is cleared. */
  function BeginSelect(s: PageState, side: Side): PageState {
    var p := PanelOf(s, side);
    WithPanel(s, side, p.(loading := true, error := None))
  }

  /** `handleProfileSelect`: start a lookup for the overlay's target side, or do nothing without a target. */
  function HandleProfileSelect(s: PageState, username: string): (d: Dispatch)
    ensures s.overlayTarget.None? ==> d == Dispatch(s, None)
    ensures s.overlayTarget.Some? ==>
      var t := s.overlayTarget.value;
      && d.fetch == Some(Fetch(t, username))
      && PanelOf(d.state, t).loading && PanelOf(d.state, t).error.None?
      && PanelOf(d.state, t).user == PanelOf(s, t).user
      && (forall other :: other != t ==> PanelOf(d.state, other) == PanelOf(s, other))
  {
    match s.overlayTarget
    case None => Dispatch(s, None)
    case Some(t) => Dispatch(BeginSelect(s, t), Some(Fetch(t, username)))
  }

  /** How a lookup ended. */
  datatype FetchResult = Loaded(user: EthosUser) | Rejected(message: string)

  const FallbackError: string := "Failed to load user data"

  /** The end of a lookup: a loaded user replaces the side's user; a rejection keeps it and records the message. */
  function FinishSelect(s: PageState, side: Side, result: FetchResult): PageState {
    var p := PanelOf(s, side);
    var p' := match result
      case Loaded(u) => p.(user := Some(u), loading := false)
      case Rejected(m) => p.(loading := false, error := Some(if m == "" then FallbackError else m));
    WithPanel(s, side, p')
  }

  /**
    Selecting from the overlay and receiving the user shows that user on the
    target side, not loading and without error, and leaves the other side as
    it was; a rejected lookup keeps the side's previous user.
   */
  lemma SelectThenLoad(s: PageState, username: string, result: FetchResult)
    requires s.overlayTarget.Some?
    ensures var t := s.overlayTarget.value;
            var d := HandleProfileSelect(s, username);
            var s' := FinishSelect(d.state, t, result);
      && !PanelOf(s', t).loading
      && (result.Loaded? ==> PanelOf(s', t) == Panel(Some(result.user), false, None))
      && (result.Rejected? ==>
            PanelOf(s', t).user == PanelOf(s, t).user && PanelOf(s', t).error.Some? && PanelOf(s', t).error.value != "")
      && (forall other :: other != t ==> PanelOf(s', other) == PanelOf(s, other))
  {
  }

  /**
    A profile picked after opening the sheet for a side is looked up for
    that side; once the sheet is closed, a pick starts nothing and changes
    nothing.
   */
  lemma OverlayTargetsSelection(s: PageState, target: Side, username: string)
    ensures HandleProfileSelect(OpenOverlay(s, target), username).fetch == Some(Fetch(target, username))
    ensures PanelOf(HandleProfileSelect(OpenOverlay(s, target), username).state, target).loading
    ensures HandleProfileSelect(CloseOverlay(s), username) == Dispatch(CloseOverlay(s), None)
  {
  }
}

=== FILE: image_generator.dfy ===
/**
  The comparison image panel: the key statistics it shows, the suffix of an
  abbreviated number, the name of the downloaded image, the share link, and
  the guards on both actions.

  The share link's query is read back by the comparison page with
  `URLSearchParams`, which parses `application/x-www-form-urlencoded` as in
  section 5.1 of the WHATWG URL Standard; `ParseQuery` models that parser
  without its percent-decoding step.
 */
module ImageGenerator {
  import opened Values
  import opened Text
  import opened Types
  import ComparisonView

  // ---------------------------------------------------------------------------
  // Key statistics
  // ---------------------------------------------------------------------------

  /** The abbreviation of a number: its scaled value and the suffix written after it. */
  datatype Abbrev = Abbrev(scaled: real, suffix: string)

  /** `formatNumber` without the text conversion: millions get "m", thousands "k", the rest nothing. */
  function Abbreviate(num: real): (a: Abbrev)
    ensures a.suffix == "m" <==> num >= 1000000.0
    ensures a.suffix == "k" <==> 1000.0 <= num < 1000000.0
    ensures a.suffix == "" <==> num < 1000.0
  {
    if num >= 1000000.0 then Abbrev(num / 1000000.0, "m")
    else if num >= 1000.0 then Abbrev(num / 1000.0, "k")
    else Abbrev(num, "")
  }

  /**
    Multiplying the scaled value back by its suffix's factor gives the
    number, and a "k" value is always between 1 and 1000 before rounding.
   */
  lemma AbbreviateScales(num: real)
    ensures var a := Abbreviate(num);
      && a.scaled * (if a.suffix == "m" then 1000000.0 else if a.suffix == "k" then 1000.0 else 1.0) == num
      && (a.suffix == "k" ==> 1.0 <= a.scaled < 1000.0)
      && (a.suffix == "m" ==> a.scaled >= 1.0)
  {
  }

  datatype KeyStats = KeyStats(ethosScore: nat, totalXp: nat, totalXpSuffix: string, totalReviews: nat, ethVouchReceived: real)

  /** `getKeyStats`. */
  function GetKeyStats(u: EthosUser): KeyStats {
    var rc := ReceivedCounts(u.stats);
    KeyStats(
      ethosScore := u.score,
      totalXp := u.xp,
      totalXpSuffix := Abbreviate(u.xp as real).suffix,
      totalReviews := rc.positive + rc.neutral + rc.negative,
      ethVouchReceived := WeiToEth(VouchReceived(u.stats).amountWeiTotal))
  }

  /**
    The image shows the same review total and received ETH as the comparison
    page's rows, and without statistics both are 0.
   */
  lemma KeyStatsAgreeWithPage(u: EthosUser)
    ensures GetKeyStats(u).totalReviews as real == ComparisonView.Statistics(u)[3].value
    ensures GetKeyStats(u).ethVouchReceived == ComparisonView.Statistics(u)[14].value
    ensures GetKeyStats(u).ethosScore as real == ComparisonView.Statistics(u)[0].value
    ensures u.stats.None? ==> GetKeyStats(u).totalReviews == 0 && GetKeyStats(u).ethVouchReceived == 0.0
  {
    if u.stats.None? {
      WeiToEthZero();
    }
  }

  // ---------------------------------------------------------------------------
  // File name
  // ---------------------------------------------------------------------------

  /** `replace(/[^a-zA-Z0-9]/g, '')`: the ASCII letters and digits of `s`, in order. */
  function Sanitize(s: string): (r: string)
    ensures |r| <= |s|
    ensures forall i :: 0 <= i < |r| ==> IsAsciiAlnum(r[i])
  {
    if |s| == 0 then []
    else Sanitize(s[..|s| - 1]) + (if IsAsciiAlnum(s[|s| - 1]) then [s[|s| - 1]] else [])
  }

  /** Sanitizing distributes over concatenation, so it keeps the kept characters' order. */
  lemma {:induction false} SanitizeAppend(a: string, b: string)
    ensures Sanitize(a + b) == Sanitize(a) + Sanitize(b)
    decreases |b|
  {
    if |b| > 0 {
      var b' := b[..|b| - 1];
      assert (a + b)[..|a + b| - 1] == a + b';
      assert (a + b)[|a + b| - 1] == b[|b| - 1];
      SanitizeAppend(a, b');
    } else {
      assert a + b == a;
    }
  }

  /** A string of letters and digits is left as it is; in particular sanitizing twice is sanitizing once. */
  lemma {:induction false} SanitizeKeepsAlnum(s: string)
    requires forall i :: 0 <= i < |s| ==> IsAsciiAlnum(s[i])
    ensures Sanitize(s) == s
  {
    if |s| > 0 {
      SanitizeKeepsAlnum(s[..|s| - 1]);
      assert s == s[..|s| - 1] + [s[|s| - 1]];
    }
  }

  lemma SanitizeIdempotent(s: string)
    ensures Sanitize(Sanitize(s)) == Sanitize(s)
  {
    SanitizeKeepsAlnum(Sanitize(s));
  }

  const FilePrefix: string := "ethos-comparison-"
  const FileSeparator: string := "-vs-"
  const FileExtension: string := ".png"

  /** The name of the downloaded image. */
  function Filename(u1: string, u2: string): string {
    FilePrefix + Sanitize(u1) + FileSeparator + Sanitize(u2) + FileExtension
  }

  /** The index of the first `c` in `s`, or -1. */
  function IndexOf(s: string, c: char): (i: int)
    ensures -1 <= i < |s|
    ensures i >= 0 ==> s[i] == c && forall k :: 0 <= k < i ==> s[k] != c
    ensures i == -1 ==> forall k :: 0 <= k < |s| ==> s[k] != c
  {
    if |s| == 0 then -1
    else if s[0] == c then 0
    else
      var j := IndexOf(s[1..], c);
      assert forall k :: 1 <= k < |s| ==> s[k] == s[1..][k - 1];
      if j == -1 then -1 else j + 1
  }

  /** The text between the prefix and the extension of an image name, if it has both. */
  function StripAffixes(f: string): Option<string> {
    var n := |FilePrefix|;
    if |f| < n + |FileExtension| || f[..n] != FilePrefix || f[|f| - |FileExtension|..] != FileExtension then None
    else Some(f[n..|f| - |FileExtension|])
  }

  /** The names on either side of the separator, cut at the first `-`. */
  function SplitNames(body: string): Option<(string, string)> {
    var i := IndexOf(body, '-');
    if i < 0 || |body| < i + |FileSeparator| || body[i..i + |FileSeparator|] != FileSeparator then None
    else Some((body[..i], body[i + |FileSeparator|..]))
  }

  /** Reads the two sanitized names back out of an image name, if it has the image name's shape. */
  function ParseFilename(f: string): Option<(string, string)> {
    match StripAffixes(f)
    case None => None
    case Some(body) => SplitNames(body)
  }

  lemma StripAffixesOf(m: string)
    ensures StripAffixes(FilePrefix + m + FileExtension) == Some(m)
  {
    var f := FilePrefix + m + FileExtension;
    assert f[..|FilePrefix|] == FilePrefix;
    assert f[|f| - |FileExtension|..] == FileExtension;
    assert f[|FilePrefix|..|f| - |FileExtension|] == m;
  }

  lemma SplitNamesOf(a: string, b: string)
    requires forall k :: 0 <= k < |a| ==> a[k] != '-'
    ensures SplitNames(a + FileSeparator + b) == Some((a, b))
  {
    var body := a + FileSeparator + b;
    assert forall k :: 0 <= k < |a| ==> body[k] == a[k];
    assert body[|a|] == '-';
    assert IndexOf(body, '-') == |a|;
    assert body[|a|..|a| + |FileSeparator|] == FileSeparator;
    assert body[..|a|] == a;
    assert body[|a| + |FileSeparator|..] == b;
  }

  /** The image name determines both sanitized names: reading them back gives them exactly. */
  lemma FilenameRoundTrip(u1: string, u2: string)
    ensures ParseFilename(Filename(u1, u2)) == Some((Sanitize(u1), Sanitize(u2)))
  {
    var a := Sanitize(u1);
    var b := Sanitize(u2);
    assert Filename(u1, u2) == FilePrefix + (a + FileSeparator + b) + FileExtension;
    StripAffixesOf(a + FileSeparator + b);
    SplitNamesOf(a, b);
  }

  // ---------------------------------------------------------------------------
  // Share link
  // ---------------------------------------------------------------------------

  /** The query of the share link. */
  function ShareQuery(u1: string, u2: string): string {
    "?" + Assignment("user1", u1) + "&" + Assignment("user2", u2)
  }

  /** `name=value`. */
  function Assignment(name: string, value: string): string {
    name + "=" + value
  }

  /** The pieces of `s` between the occurrences of `sep`, as `split`. */
  function Split(s: string, sep: char): (r: seq<string>)
    ensures |r| >= 1
    decreases |s|
  {
    var i := IndexOf(s, sep);
    if i < 0 then [s] else [s[..i]] + Split(s[i + 1..], sep)
  }

  /** Every `+` becomes a space. */
  function PlusToSpace(s: string): (r: string)
    ensures |r| == |s|
  {
    seq(|s|, i requires 0 <= i < |s| => if s[i] == '+' then ' ' else s[i])
  }

  /** One name-value pair: the text before the first `=`, and the rest; no `=` gives an empty value. */
  function ParsePair(piece: string): (string, string) {
    var i := IndexOf(piece, '=');
    if i < 0 then (PlusToSpace(piece), "") else (PlusToSpace(piece[..i]), PlusToSpace(piece[i + 1..]))
  }

  /** The pairs of the non-empty pieces, in order. */
  function ParsePieces(pieces: seq<string>): seq<(string, string)> {
    if |pieces| == 0 then []
    else (if pieces[0] == [] then [] else [ParsePair(pieces[0])]) + ParsePieces(pieces[1..])
  }

  /**
    `new URLSearchParams(query)`: a leading `?` is dropped, the rest split on
    `&`, and each non-empty piece parsed into a pair.
   */
  function ParseQuery(query: string): seq<(string, string)> {
    var q := if |query| > 0 && query[0] == '?' then query[1..] else query;
    ParsePieces(Split(q, '&'))
  }

  /** `get(name)`: the value of the first pair with that name. */
  function GetParam(pairs: seq<(string, string)>, name: string): Option<string> {
    if |pairs| == 0 then None
    else if pairs[0].0 == name then Some(pairs[0].1)
    else GetParam(pairs[1..], name)
  }

  /** A character that may occur in a handle. */
  predicate IsHandleChar(c: char) {
    IsAsciiAlnum(c) || c == '_'
  }

  predicate IsHandle(s: string) {
    forall i :: 0 <= i < |s| ==> IsHandleChar(s[i])
  }

  lemma PlusToSpaceHandle(s: string)
    requires IsHandle(s)
    ensures PlusToSpace(s) == s
  {
  }

  lemma SplitNoSeparator(s: string, sep: char)
    requires forall i :: 0 <= i < |s| ==> s[i] != sep
    ensures Split(s, sep) == [s]
  {
  }

  lemma SplitAt(a: string, b: string, sep: char)
    requires forall i :: 0 <= i < |a| ==> a[i] != sep
    ensures Split(a + [sep] + b, sep) == [a] + Split(b, sep)
  {
    var s := a + [sep] + b;
    assert forall k :: 0 <= k < |a| ==> s[k] == a[k];
    assert s[|a|] == sep;
    assert IndexOf(s, sep) == |a|;
    assert s[..|a|] == a;
    assert s[|a| + 1..] == b;
  }

  lemma ParsePairAt(name: string, value: string)
    requires IsHandle(name) && IsHandle(value)
    ensures ParsePair(Assignment(name, value)) == (name, value)
  {
    var p := Assignment(name, value);
    assert forall k :: 0 <= k < |name| ==> p[k] == name[k];
    assert p[|name|] == '=';
    assert IndexOf(p, '=') == |name|;
    assert p[..|name|] == name;
    assert p[|name| + 1..] == value;
    PlusToSpaceHandle(name);
    PlusToSpaceHandle(value);
  }

  /** A handle after a fixed name contains no `&`. */
  lemma NoAmpersand(name: string, u: string)
    requires forall i :: 0 <= i < |name| ==> name[i] != '&'
    requires IsHandle(u)
    ensures forall i :: 0 <= i < |name + u| ==> (name + u)[i] != '&'
  {
    forall i | 0 <= i < |name + u|
      ensures (name + u)[i] != '&'
    {
      if i >= |name| {
        assert (name + u)[i] == u[i - |name|];
      }
    }
  }

  /** The share query splits into the two assignments. */
  lemma ShareQueryPieces(u1: string, u2: string)
    requires IsHandle(u1) && IsHandle(u2)
    ensures ParseQuery(ShareQuery(u1, u2)) == ParsePieces([Assignment("user1", u1), Assignment("user2", u2)])
  {
    var p1 := Assignment("user1", u1);
    var p2 := Assignment("user2", u2);
    var q := ShareQuery(u1, u2);
    assert q == "?" + (p1 + ['&'] + p2);
    assert q[1..] == p1 + ['&'] + p2;
    NoAmpersand("user1=", u1);
    NoAmpersand("user2=", u2);
    assert p1 == "user1=" + u1;
    assert p2 == "user2=" + u2;
    SplitAt(p1, p2, '&');
    SplitNoSeparator(p2, '&');
  }

  lemma ParseTwoPieces(p1: string, p2: string)
    requires p1 != [] && p2 != []
    ensures ParsePieces([p1, p2]) == [ParsePair(p1), ParsePair(p2)]
  {
    assert [p2][1..] == [];
    assert ParsePieces([p2]) == [ParsePair(p2)] + ParsePieces([]);
    assert [p1, p2][1..] == [p2];
    assert ParsePieces([p1, p2]) == [ParsePair(p1)] + ParsePieces([p2]);
  }

  /**
    For handles made of ASCII letters, digits and `_`, the comparison page
    reads the two handles of a share link back as `user1` and `user2`.
   */
  lemma ShareQueryRoundTrip(u1: string, u2: string)
    requires IsHandle(u1) && IsHandle(u2)
    ensures GetParam(ParseQuery(ShareQuery(u1, u2)), "user1") == Some(u1)
    ensures GetParam(ParseQuery(ShareQuery(u1, u2)), "user2") == Some(u2)
  {
    ShareQueryPieces(u1, u2);
    ParseTwoPieces(Assignment("user1", u1), Assignment("user2", u2));
    ParsePairAt("user1", u1);
    ParsePairAt("user2", u2);
    var pairs := [("user1", u1), ("user2", u2)];
    assert ParseQuery(ShareQuery(u1, u2)) == pairs;
    assert pairs[1..] == [("user2", u2)];
  }

  // ---------------------------------------------------------------------------
  // Guards
  // ---------------------------------------------------------------------------

  /** The toast shown when either side of the comparison is empty. */
  const NotLoaded: string := "Please ensure both profiles are loaded"

  /** The toast shown when generating the image throws. */
  const GenerateFailed: string := "Failed to generate image. Please try again."

  /** What pressing a button does. */
  datatype Action = ErrorToast(message: string) | DownloadImage(filename: string) | OpenShare(query: string)

  /** A possibly missing string as a template literal writes it: `undefined` when missing. */
  function Interpolated(o: Option<string>): (s: string)
    ensures o.Some? ==> s == o.value
    ensures o.None? ==> s == "undefined"
  {
    match o
    case Some(v) => v
    case None => "undefined"
  }

  /**
    `generateImage`: without the rendered panel or either user, the "loaded"
    toast; a user without a username makes `username.replace` throw inside
    the `try`, which shows the failure toast; otherwise the panel is
    downloaded under the image name.
   */
  function Download(u1: Option<EthosUser>, u2: Option<EthosUser>, panelMounted: bool): (a: Action)
    ensures a.DownloadImage? <==> panelMounted && u1.Some? && u2.Some? && u1.value.username.Some? && u2.value.username.Some?
    ensures a == ErrorToast(NotLoaded) <==> !panelMounted || u1.None? || u2.None?
    ensures a.ErrorToast? ==> a.message in {NotLoaded, GenerateFailed}
  {
    if !panelMounted || u1.None? || u2.None? then ErrorToast(NotLoaded)
    else if u1.value.username.None? || u2.value.username.None? then ErrorToast(GenerateFailed)
    else DownloadImage(Filename(u1.value.username.value, u2.value.username.value))
  }

  /**
    `shareComparison`: a share dialog for the link to this comparison, whose
    query interpolates both usernames, a missing one as `undefined`.
   */
  function Share(u1: Option<EthosUser>, u2: Option<EthosUser>): (a: Action)
    ensures a.OpenShare? <==> u1.Some? && u2.Some?
    ensures a.ErrorToast? ==> a.message == NotLoaded
  {
    if u1.None? || u2.None? then ErrorToast(NotLoaded)
    else OpenShare(ShareQuery(Interpolated(u1.value.username), Interpolated(u2.value.username)))
  }

  /**
    With two loaded users that have usernames, the download is named after
    both; when either username is missing, the download fails with the
    failure toast.
   */
  lemma DownloadNamesBothUsers(u1: EthosUser, u2: EthosUser)
    requires u1.username.Some? && u2.username.Some?
    ensures ParseFilename(Download(Some(u1), Some(u2), true).filename)
            == Some((Sanitize(u1.username.value), Sanitize(u2.username.value)))
  {
    FilenameRoundTrip(u1.username.value, u2.username.value);
  }

  lemma DownloadWithoutUsernameFails(u1: EthosUser, u2: EthosUser)
    requires u1.username.None? || u2.username.None?
    ensures Download(Some(u1), Some(u2), true) == ErrorToast(GenerateFailed)
  {
  }

  /**
    A shared link reopens both users: the comparison page reads back each
    username, or the text `undefined` for a user without one, which it then
    looks up as a handle.
   */
  lemma ShareNamesBothUsers(u1: EthosUser, u2: EthosUser)
    requires u1.username.Some? ==> IsHandle(u1.username.value)
    requires u2.username.Some? ==> IsHandle(u2.username.value)
    ensures GetParam(ParseQuery(Share(Some(u1), Some(u2)).query), "user1") == Some(Interpolated(u1.username))
    ensures GetParam(ParseQuery(Share(Some(u1), Some(u2)).query), "user2") == Some(Interpolated(u2.username))
    ensures u1.username.None? ==> GetParam(ParseQuery(Share(Some(u1), Some(u2)).query), "user1") == Some("undefined")
  {
    var a := Interpolated(u1.username);
    var b := Interpolated(u2.username);
    UndefinedIsHandle();
    ShareQueryRoundTrip(a, b);
  }

  /** The text `undefined` passes as a handle. */
  lemma UndefinedIsHandle()
    ensures IsHandle("undefined")
  {
  }
}

=== FILE: metrics.dfy ===
/**
  The metric arithmetic of the data layer: `calculateUserMetrics` (from a
  statistics record, or from the individual lookups), the review breakdown
  fold, the vote totals of an activity and the XP level.

  The individual lookups are inputs: the ratings of the reviews received,
  and the counts and amounts the other lookups return. Ratings are strings,
  since the review lookup copies whatever the upstream `score` field holds.
 */
module Metrics {
  import opened Values
  import opened Types

  /** XP points per level. */
  const XpPerLevel: nat := 1000

  // ---------------------------------------------------------------------------
  // From a statistics record
  // ---------------------------------------------------------------------------

  /** The record `calculateUserMetrics` may be handed: score, XP and nested statistics, each possibly missing. */
  datatype StatsCarrier = StatsCarrier(
    score: Option<nat>,
    xpTotal: Option<nat>,
    xpStreakDays: Option<nat>,
    stats: Option<Stats>)

  /** The metrics built from a statistics record, without any further lookup. */
  function MetricsFromStats(u: StatsCarrier): (m: UserMetrics)
    ensures m.reviewsReceived.total == m.reviewsReceived.positive + m.reviewsReceived.neutral + m.reviewsReceived.negative
    ensures m.twitterFollowers == 0 && m.yapsCount == 0 && m.reviewsGiven == 0 && m.totalVotesCast == 0
  {
    var received := ReceivedCounts(u.stats);
    var given := VouchGiven(u.stats);
    var got := VouchReceived(u.stats);
    UserMetrics(
      score := OptNumOr(u.score, 0),
      twitterFollowers := 0,
      yapsCount := 0,
      totalXp := OptNumOr(u.xpTotal, 0),
      xpStreak := OptNumOr(u.xpStreakDays, 0),
      reviewsReceived := ReviewBreakdown(PolaritySum(received), received.positive, received.neutral, received.negative),
      reviewsGiven := 0,
      vouchesGiven := given.count,
      vouchesReceived := got.count,
      ethVouchedGiven := WeiToEth(given.amountWeiTotal),
      ethVouchedReceived := WeiToEth(got.amountWeiTotal),
      totalVotesCast := 0)
  }

  /** Score, XP and streak are the record's, a missing one reading 0. */
  lemma MetricsFromStatsHeadline(u: StatsCarrier)
    ensures var m := MetricsFromStats(u);
      && m.score == (if u.score.Some? then u.score.value else 0)
      && m.totalXp == (if u.xpTotal.Some? then u.xpTotal.value else 0)
      && m.xpStreak == (if u.xpStreakDays.Some? then u.xpStreakDays.value else 0)
  {
  }

  /** Without statistics every review and vouch metric is zero. */
  lemma MetricsFromStatsDefaults(u: StatsCarrier)
    requires u.stats.None?
    ensures var m := MetricsFromStats(u);
      && m.reviewsReceived == ReviewBreakdown(0, 0, 0, 0)
      && m.vouchesGiven == 0 && m.vouchesReceived == 0
      && m.ethVouchedGiven == 0.0 && m.ethVouchedReceived == 0.0
  {
    assert VouchGiven(u.stats) == VouchSide(0, 0) && VouchReceived(u.stats) == VouchSide(0, 0);
    WeiToEthZero();
  }

  /**
    With statistics, the review counts are the received polarity counts, the
    vouch counts are the record's, and the ETH amounts are the wei totals in
    ether.
   */
  lemma MetricsFromStatsCounts(u: StatsCarrier)
    ensures var m := MetricsFromStats(u);
      && m.reviewsReceived.positive == ReceivedCounts(u.stats).positive
      && m.reviewsReceived.neutral == ReceivedCounts(u.stats).neutral
      && m.reviewsReceived.negative == ReceivedCounts(u.stats).negative
      && m.vouchesGiven == VouchGiven(u.stats).count
      && m.vouchesReceived == VouchReceived(u.stats).count
      && m.ethVouchedGiven * (WeiPerEth as real) == VouchGiven(u.stats).amountWeiTotal as real
      && m.ethVouchedReceived * (WeiPerEth as real) == VouchReceived(u.stats).amountWeiTotal as real
  {
    WeiToEthScales(VouchGiven(u.stats).amountWeiTotal);
    WeiToEthScales(VouchReceived(u.stats).amountWeiTotal);
  }

  // ---------------------------------------------------------------------------
  // The review breakdown fold
  // ---------------------------------------------------------------------------

  /**
    One step of the fold: `total` goes up by one, and so does the member named
    by the rating. A rating naming no member adds a member the metrics never
    read; the rating "total" names `total` itself.
   */
  function CountReview(acc: ReviewBreakdown, rating: string): ReviewBreakdown {
    var a := acc.(total := acc.total + 1);
    if rating == "positive" then a.(positive := a.positive + 1)
    else if rating == "neutral" then a.(neutral := a.neutral + 1)
    else if rating == "negative" then a.(negative := a.negative + 1)
    else if rating == "total" then a.(total := a.total + 1)
    else a
  }

  /** The fold over the ratings, left to right, from all zeros. */
  function Breakdown(ratings: seq<string>): ReviewBreakdown {
    if |ratings| == 0 then ReviewBreakdown(0, 0, 0, 0)
    else CountReview(Breakdown(ratings[..|ratings| - 1]), ratings[|ratings| - 1])
  }

  /** The number of occurrences of `x` in `s`. */
  function Occurrences(s: seq<string>, x: string): (n: nat)
    ensures n <= |s|
  {
    if |s| == 0 then 0
    else Occurrences(s[..|s| - 1], x) + (if s[|s| - 1] == x then 1 else 0)
  }

  /**
    Each polarity count is the number of reviews with that rating, and the
    total is the number of reviews plus the number rated "total".
   */
  lemma {:induction false} BreakdownCounts(ratings: seq<string>)
    ensures Breakdown(ratings) == ReviewBreakdown(
      |ratings| + Occurrences(ratings, "total"),
      Occurrences(ratings, "positive"),
      Occurrences(ratings, "neutral"),
      Occurrences(ratings, "negative"))
  {
    if |ratings| > 0 {
      BreakdownCounts(ratings[..|ratings| - 1]);
    }
  }

  /** Every rating is one of the three polarities. */
  predicate Polar(ratings: seq<string>) {
    forall i :: 0 <= i < |ratings| ==> ratings[i] in {"positive", "neutral", "negative"}
  }

  lemma {:induction false} PolarOccurrences(ratings: seq<string>)
    requires Polar(ratings)
    ensures Occurrences(ratings, "positive") + Occurrences(ratings, "neutral") + Occurrences(ratings, "negative")
         == |ratings|
    ensures Occurrences(ratings, "total") == 0
  {
    if |ratings| > 0 {
      var p := ratings[..|ratings| - 1];
      assert forall i :: 0 <= i < |p| ==> p[i] == ratings[i];
      PolarOccurrences(p);
    }
  }

  /**
    When every rating is a polarity the fold's total is the number of reviews
    and equals the sum of the three counts; otherwise the three counts add up
    to no more than the total.
   */
  lemma BreakdownTotal(ratings: seq<string>)
    ensures var b := Breakdown(ratings);
      && b.positive + b.neutral + b.negative <= b.total
      && (Polar(ratings) ==> b.total == |ratings| == b.positive + b.neutral + b.negative)
  {
    BreakdownCounts(ratings);
    OccurrencesSplit(ratings);
    if Polar(ratings) {
      PolarOccurrences(ratings);
    }
  }

  lemma {:induction false} OccurrencesSplit(ratings: seq<string>)
    ensures Occurrences(ratings, "positive") + Occurrences(ratings, "neutral") + Occurrences(ratings, "negative")
         <= |ratings|
  {
    if |ratings| > 0 {
      OccurrencesSplit(ratings[..|ratings| - 1]);
    }
  }

  // ---------------------------------------------------------------------------
  // From the individual lookups
  // ---------------------------------------------------------------------------

  /** What the individual lookups answered. */
  datatype Lookups = Lookups(
    score: nat,
    totalXp: nat,
    currentStreak: nat,
    reviewRatings: seq<string>,
    reviewsGiven: nat,
    vouchAmountsGiven: seq<real>,
    vouchAmountsReceived: seq<real>,
    votesCast: nat,
    activities: nat)

  function Sum(s: seq<real>): real {
    if |s| == 0 then 0.0 else Sum(s[..|s| - 1]) + s[|s| - 1]
  }

  /** The metrics assembled from the individual lookups. */
  function MetricsFromLookups(l: Lookups): (m: UserMetrics)
    ensures m.reviewsReceived.total == |l.reviewRatings| + Occurrences(l.reviewRatings, "total")
    ensures m.vouchesGiven == |l.vouchAmountsGiven| && m.vouchesReceived == |l.vouchAmountsReceived|
    ensures Polar(l.reviewRatings) ==>
      m.reviewsReceived.total == m.reviewsReceived.positive + m.reviewsReceived.neutral + m.reviewsReceived.negative
  {
    BreakdownCounts(l.reviewRatings);
    BreakdownTotal(l.reviewRatings);
    UserMetrics(
      score := l.score,
      twitterFollowers := 0,
      yapsCount := l.activities,
      totalXp := l.totalXp,
      xpStreak := l.currentStreak,
      reviewsReceived := Breakdown(l.reviewRatings),
      reviewsGiven := l.reviewsGiven,
      vouchesGiven := |l.vouchAmountsGiven|,
      vouchesReceived := |l.vouchAmountsReceived|,
      ethVouchedGiven := Sum(l.vouchAmountsGiven),
      ethVouchedReceived := Sum(l.vouchAmountsReceived),
      totalVotesCast := l.votesCast)
  }

  // ---------------------------------------------------------------------------
  // Activity votes
  // ---------------------------------------------------------------------------

  /** The `votes` of an upstream activity, each count possibly missing. */
  datatype Votes = Votes(upvotes: Option<nat>, downvotes: Option<nat>)

  /** The activity's vote totals. */
  datatype VoteTotals = VoteTotals(totalVotes: nat, netVotes: int)

  function Tally(v: Option<Votes>): (t: VoteTotals) {
    var up := if v.Some? then OptNumOr(v.value.upvotes, 0) else 0;
    var down := if v.Some? then OptNumOr(v.value.downvotes, 0) else 0;
    VoteTotals(up + down, up - down)
  }

  /**
    The totals determine the counts: the up-votes are half of total plus net
    and the down-votes half of total minus net; the net never exceeds the
    total in size, and it has the total's parity.
   */
  lemma TallyRecoversCounts(v: Option<Votes>)
    ensures var t := Tally(v);
      var up := if v.Some? then OptNumOr(v.value.upvotes, 0) else 0;
      var down := if v.Some? then OptNumOr(v.value.downvotes, 0) else 0;
      && t.totalVotes + t.netVotes == 2 * up
      && t.totalVotes - t.netVotes == 2 * down
      && -(t.totalVotes as int) <= t.netVotes <= t.totalVotes
      && (t.totalVotes + t.netVotes) % 2 == 0
  {
  }

  // ---------------------------------------------------------------------------
  // XP
  // ---------------------------------------------------------------------------

  /** The body of the XP lookup: a number, or anything else. */
  datatype XpBody = Number(n: int) | NotNumber

  datatype Xp = Xp(totalXp: int, level: int)

  /** A number body is the total, anything else is 0; the level is the total divided by 1000, rounded down. */
  function XpFrom(body: XpBody): (x: Xp)
    ensures body.Number? ==> x.totalXp == body.n
    ensures x.level * XpPerLevel <= x.totalXp < (x.level + 1) * XpPerLevel
    ensures body.NotNumber? ==> x == Xp(0, 0)
  {
    var total := if body.Number? then body.n else 0;
    Xp(total, total / XpPerLevel)
  }

  /** The level is monotone in the XP total and moves up by one every 1000 points. */
  lemma LevelMonotone(a: int, b: int)
    requires a <= b
    ensures XpFrom(Number(a)).level <= XpFrom(Number(b)).level
    ensures XpFrom(Number(a + XpPerLevel)).level == XpFrom(Number(a)).level + 1
  {
    var la := XpFrom(Number(a)).level;
    var lb := XpFrom(Number(b)).level;
    var lc := XpFrom(Number(a + XpPerLevel)).level;
    assert lc * XpPerLevel <= a + XpPerLevel < (lc + 1) * XpPerLevel;
    assert la * XpPerLevel <= a < (la + 1) * XpPerLevel;
  }
}

=== FILE: ordering.dfy ===
/**
  Stable sorting by a lexicographic rank.

  `Array.prototype.sort` is stable (required since ECMAScript 2019). Every
  comparator the application passes to it is consistent with a lexicographic
  order on up to three integer keys, so each sort is modelled as a stable
  insertion sort by a `Rank`.
 */
module Ordering {

  /** Three integer keys compared lexicographically; smaller sorts first. */
  datatype Rank = Rank(major: int, middle: int, minor: int)

  /** `a` sorts strictly before `b`. */
  predicate Before(a: Rank, b: Rank) {
    || a.major < b.major
    || (a.major == b.major && a.middle < b.middle)
    || (a.major == b.major && a.middle == b.middle && a.minor < b.minor)
  }

  /** `Before` is a strict total order on ranks. */
  lemma BeforeTrichotomy(a: Rank, b: Rank)
    ensures Before(a, b) || a == b || Before(b, a)
    ensures !(Before(a, b) && Before(b, a))
    ensures !Before(a, a)
  {
  }

  /** No element of `s` sorts after a later one. */
  ghost predicate Sorted<T>(s: seq<T>, key: T -> Rank) {
    forall i, j :: 0 <= i < j < |s| ==> !Before(key(s[j]), key(s[i]))
  }

  /** The subsequence of `s` whose rank is `k`. */
  function OfRank<T>(s: seq<T>, key: T -> Rank, k: Rank): (r: seq<T>)
    ensures |r| <= |s|
  {
    if |s| == 0 then []
    else (if key(s[0]) == k then [s[0]] else []) + OfRank(s[1..], key, k)
  }

  /** Puts `x` after the elements of `s` that sort strictly before it and before all the others. */
  function Insert<T>(x: T, s: seq<T>, key: T -> Rank): (r: seq<T>)
    ensures |r| == |s| + 1
  {
    if |s| == 0 then [x]
    else if Before(key(s[0]), key(x)) then [s[0]] + Insert(x, s[1..], key)
    else [x] + s
  }

  /** A stable sort of `s` by `key`. */
  function Sort<T>(s: seq<T>, key: T -> Rank): (r: seq<T>)
    ensures |r| == |s|
  {
    if |s| == 0 then [] else Insert(s[0], Sort(s[1..], key), key)
  }

  lemma {:induction false} InsertMultiset<T>(x: T, s: seq<T>, key: T -> Rank)
    ensures multiset(Insert(x, s, key)) == multiset(s) + multiset{x}
  {
    if |s| > 0 && Before(key(s[0]), key(x)) {
      InsertMultiset(x, s[1..], key);
      assert s == [s[0]] + s[1..];
    }
  }

  /** Sorting permutes its input. */
  lemma {:induction false} SortMultiset<T>(s: seq<T>, key: T -> Rank)
    ensures multiset(Sort(s, key)) == multiset(s)
  {
    if |s| > 0 {
      SortMultiset(s[1..], key);
      InsertMultiset(s[0], Sort(s[1..], key), key);
      assert s == [s[0]] + s[1..];
    }
  }

  /** Every element of the sorted sequence is an element of the input, and back. */
  lemma SortSameElements<T>(s: seq<T>, key: T -> Rank)
    ensures forall x :: x in Sort(s, key) <==> x in s
  {
    SortMultiset(s, key);
    forall x
      ensures x in Sort(s, key) <==> x in s
    {
      assert x in Sort(s, key) <==> x in multiset(Sort(s, key));
      assert x in s <==> x in multiset(s);
    }
  }

  lemma {:induction false} InsertSorted<T>(x: T, s: seq<T>, key: T -> Rank)
    requires Sorted(s, key)
    ensures Sorted(Insert(x, s, key), key)
  {
    if |s| > 0 && Before(key(s[0]), key(x)) {
      var t := s[1..];
      assert Sorted(t, key);
      InsertSorted(x, t, key);
      InsertMultiset(x, t, key);
      var r := Insert(x, s, key);
      var rt := Insert(x, t, key);
      assert r == [s[0]] + rt;
      forall j | 0 < j < |r|
        ensures !Before(key(r[j]), key(s[0]))
      {
        assert r[j] == rt[j - 1];
        assert rt[j - 1] in multiset(rt);
        if rt[j - 1] != x {
          assert rt[j - 1] in multiset(t);
          var m :| 0 <= m < |t| && t[m] == rt[j - 1];
          assert t[m] == s[m + 1];
        }
      }
    } else if |s| > 0 {
      var r := Insert(x, s, key);
      assert r == [x] + s;
      forall j | 0 < j < |r|
        ensures !Before(key(r[j]), key(x))
      {
        assert r[j] == s[j - 1];
        BeforeTrichotomy(key(s[0]), key(x));
      }
    }
  }

  /** The sorted sequence is in rank order. */
  lemma {:induction false} SortSorted<T>(s: seq<T>, key: T -> Rank)
    ensures Sorted(Sort(s, key), key)
  {
    if |s| > 0 {
      SortSorted(s[1..], key);
      InsertSorted(s[0], Sort(s[1..], key), key);
    }
  }

  lemma {:induction false} InsertOfRank<T>(x: T, s: seq<T>, key: T -> Rank, k: Rank)
    ensures OfRank(Insert(x, s, key), key, k)
         == (if key(x) == k then [x] else []) + OfRank(s, key, k)
  {
    if |s| > 0 {
      if Before(key(s[0]), key(x)) {
        InsertOfRank(x, s[1..], key, k);
        var r := Insert(x, s, key);
        assert r[0] == s[0] && r[1..] == Insert(x, s[1..], key);
        if key(x) == k {
          assert key(s[0]) != k;
        }
      } else {
        var r := Insert(x, s, key);
        assert r[0] == x && r[1..] == s;
      }
    }
  }

  /** Stability: for every rank, the elements of that rank keep their input order. */
  lemma {:induction false} SortStable<T>(s: seq<T>, key: T -> Rank, k: Rank)
    ensures OfRank(Sort(s, key), key, k) == OfRank(s, key, k)
  {
    if |s| > 0 {
      SortStable(s[1..], key, k);
      InsertOfRank(s[0], Sort(s[1..], key), key, k);
    }
  }

  /** The first element of `OfRank` is the first element of `s` with that rank. */
  lemma {:induction false} OfRankHead<T>(s: seq<T>, key: T -> Rank, k: Rank)
    requires |OfRank(s, key, k)| > 0
    ensures exists i :: 0 <= i < |s| && s[i] == OfRank(s, key, k)[0] && key(s[i]) == k
                     && forall j :: 0 <= j < i ==> key(s[j]) != k
  {
    if key(s[0]) != k {
      OfRankHead(s[1..], key, k);
      var i :| 0 <= i < |s[1..]| && s[1..][i] == OfRank(s[1..], key, k)[0] && key(s[1..][i]) == k
               && forall j :: 0 <= j < i ==> key(s[1..][j]) != k;
      assert s[i + 1] == s[1..][i];
      assert forall j :: 0 <= j < i + 1 ==> key(s[j]) != k by {
        forall j | 0 <= j < i + 1
          ensures key(s[j]) != k
        {
          if j > 0 {
            assert s[j] == s[1..][j - 1];
          }
        }
      }
    } else {
      assert s[0] == OfRank(s, key, k)[0];
    }
  }

  /**
    The head of a stable sort is the first element of the input with the
    least rank: nothing sorts before it, and every earlier input element
    sorts strictly after it.
   */
  lemma SortHead<T>(s: seq<T>, key: T -> Rank)
    requires |s| > 0
    ensures exists i :: 0 <= i < |s| && s[i] == Sort(s, key)[0]
                     && (forall j :: 0 <= j < |s| ==> !Before(key(s[j]), key(s[i])))
                     && (forall j :: 0 <= j < i ==> Before(key(s[i]), key(s[j])))
  {
    var r := Sort(s, key);
    var k := key(r[0]);
    SortSorted(s, key);
    SortSameElements(s, key);
    SortStable(s, key, k);
    assert OfRank(r, key, k)[0] == r[0];
    OfRankHead(s, key, k);
    var i :| 0 <= i < |s| && s[i] == OfRank(s, key, k)[0] && key(s[i]) == k
             && forall j :: 0 <= j < i ==> key(s[j]) != k;
    forall j | 0 <= j < |s|
      ensures !Before(key(s[j]), k)
    {
      assert s[j] in r;
      var m :| 0 <= m < |r| && r[m] == s[j];
      if m > 0 {
        assert !Before(key(r[m]), key(r[0]));
      }
    }
    forall j | 0 <= j < i
      ensures Before(k, key(s[j]))
    {
      BeforeTrichotomy(k, key(s[j]));
    }
  }

  /** No two elements of `s` agree on `f`. */
  ghost predicate DistinctBy<T, K>(s: seq<T>, f: T -> K) {
    forall i, j :: 0 <= i < j < |s| ==> f(s[i]) != f(s[j])
  }

  lemma {:induction false} InsertDistinct<T, K>(x: T, s: seq<T>, key: T -> Rank, f: T -> K)
    requires DistinctBy(s, f)
    requires forall y :: y in s ==> f(y) != f(x)
    ensures DistinctBy(Insert(x, s, key), f)
  {
    if |s| > 0 && Before(key(s[0]), key(x)) {
      var t := s[1..];
      assert DistinctBy(t, f);
      InsertDistinct(x, t, key, f);
      InsertMultiset(x, t, key);
      var rt := Insert(x, t, key);
      var r := Insert(x, s, key);
      assert r == [s[0]] + rt;
      forall j | 0 < j < |r|
        ensures f(r[j]) != f(s[0])
      {
        assert r[j] == rt[j - 1];
        assert rt[j - 1] in multiset(rt);
        if rt[j - 1] != x {
          assert rt[j - 1] in multiset(t);
          var m :| 0 <= m < |t| && t[m] == rt[j - 1];
          assert t[m] == s[m + 1];
        }
      }
    } else if |s| > 0 {
      var r := Insert(x, s, key);
      assert r == [x] + s;
      forall i, j | 0 <= i < j < |r|
        ensures f(r[i]) != f(r[j])
      {
        assert r[j] == s[j - 1];
        if i > 0 {
          assert r[i] == s[i - 1];
        }
      }
    }
  }

  /** Sorting keeps elements that were distinct under `f` distinct. */
  lemma {:induction false} SortDistinct<T, K>(s: seq<T>, key: T -> Rank, f: T -> K)
    requires DistinctBy(s, f)
    ensures DistinctBy(Sort(s, key), f)
  {
    if |s| > 0 {
      var t := s[1..];
      assert DistinctBy(t, f);
      SortDistinct(t, key, f);
      SortMultiset(t, key);
      forall y | y in Sort(t, key)
        ensures f(y) != f(s[0])
      {
        assert y in multiset(Sort(t, key));
        assert y in multiset(t);
        var m :| 0 <= m < |t| && t[m] == y;
        assert s[m + 1] == y;
      }
      InsertDistinct(s[0], Sort(s[1..], key), key, f);
    }
  }
}

=== FILE: profile_resolver.dfy ===
/**
  `getUserByTwitterUsername`: resolve a handle to an `EthosUser`.

  Check the user cache; otherwise search v1 for the handle, pick one
  candidate, enrich it from the tier lookup and the v2 user search when it
  carries a userkey, normalise, cache and return. Any failure of the search
  step yields a mock user, which is cached too: the operation never fails.

  The three upstream replies, the clock, the `Math.random()` text used in a
  fallback userkey and the random draws of the mock user are arguments.
 */
module ProfileResolver {
  import opened Values
  import opened Text
  import opened Types
  import opened Upstream
  import opened TtlCache
  import opened Ordering

  /** `user.username?.toLowerCase() === handle.toLowerCase()`. */
  predicate IsExactMatch(v: V1Record, handle: string) {
    v.username.Some? && SameIgnoringCase(v.username.value, handle)
  }

  /** The exact matches among the search values, in response order. */
  function ExactMatches(values: seq<V1Record>, handle: string): (r: seq<V1Record>)
    ensures forall x :: x in r <==> x in values && IsExactMatch(x, handle)
    ensures |r| <= |values|
  {
    if |values| == 0 then []
    else (if IsExactMatch(values[0], handle) then [values[0]] else []) + ExactMatches(values[1..], handle)
  }

  /** Filtering distributes over concatenation, so it keeps response order. */
  lemma {:induction false} ExactMatchesAppend(a: seq<V1Record>, b: seq<V1Record>, handle: string)
    ensures ExactMatches(a + b, handle) == ExactMatches(a, handle) + ExactMatches(b, handle)
  {
    if |a| > 0 {
      assert (a + b)[1..] == a[1..] + b;
      ExactMatchesAppend(a[1..], b, handle);
    } else {
      assert a + b == b;
    }
  }

  /** `exactMatches.find(user => user.profileId)`: index of the first candidate with a truthy profile id. */
  function FirstWithProfileId(ex: seq<V1Record>): (i: int)
    ensures -1 <= i < |ex|
    ensures i >= 0 ==> NumTruthy(ex[i].profileId)
    ensures forall j :: 0 <= j < (if i == -1 then |ex| else i) ==> !NumTruthy(ex[j].profileId)
  {
    if |ex| == 0 then -1
    else if NumTruthy(ex[0].profileId) then 0
    else
      var k := FirstWithProfileId(ex[1..]);
      if k == -1 then -1 else k + 1
  }

  /** The sort key of `(b.score || 0) - (a.score || 0)`: higher scores first. */
  function ScoreRank(v: V1Record): Rank {
    Rank(-(V1Score(v) as int), 0, 0)
  }

  /**
    `profileUser || highScoreUser || exactMatches[0] || values[0]`:
    the first exact match with a profile id; otherwise the head of the exact
    matches stably sorted by descending score; otherwise the first value.
   */
  function ChooseCandidate(values: seq<V1Record>, handle: string): (c: V1Record)
    requires |values| > 0
    ensures c in values
  {
    var ex := ExactMatches(values, handle);
    var i := FirstWithProfileId(ex);
    if i >= 0 then ex[i]
    else if |ex| > 0 then
      SortSameElements(ex, ScoreRank);
      Sort(ex, ScoreRank)[0]
    else values[0]
  }

  /** The candidate selection rule, case by case. */
  lemma CandidateSelection(values: seq<V1Record>, handle: string)
    requires |values| > 0
    ensures var ex := ExactMatches(values, handle);
            var c := ChooseCandidate(values, handle);
            && ((exists i :: 0 <= i < |ex| && NumTruthy(ex[i].profileId)) ==>
                  exists i :: 0 <= i < |ex| && c == ex[i] && NumTruthy(ex[i].profileId)
                            && forall j :: 0 <= j < i ==> !NumTruthy(ex[j].profileId))
            && ((forall i :: 0 <= i < |ex| ==> !NumTruthy(ex[i].profileId)) && |ex| > 0 ==>
                  exists i :: 0 <= i < |ex| && c == ex[i]
                            && (forall j :: 0 <= j < |ex| ==> V1Score(ex[j]) <= V1Score(c))
                            && (forall j :: 0 <= j < i ==> V1Score(ex[j]) < V1Score(c)))
            && (|ex| == 0 ==> c == values[0])
  {
    var ex := ExactMatches(values, handle);
    var i := FirstWithProfileId(ex);
    if i == -1 && |ex| > 0 {
      SortHead(ex, ScoreRank);
    }
  }

  /** A search whose values hold no exact match still resolves, to the first value. */
  lemma NoExactMatchPicksFirst(values: seq<V1Record>, handle: string)
    requires |values| > 0
    requires forall i :: 0 <= i < |values| ==> !IsExactMatch(values[i], handle)
    ensures ChooseCandidate(values, handle) == values[0]
  {
    ExactMatchesNone(values, handle);
  }

  lemma {:induction false} ExactMatchesNone(values: seq<V1Record>, handle: string)
    requires forall i :: 0 <= i < |values| ==> !IsExactMatch(values[i], handle)
    ensures ExactMatches(values, handle) == []
  {
    if |values| > 0 {
      ExactMatchesNone(values[1..], handle);
    }
  }

  /** The tier: the lookup's `level || 'neutral'`, or `"neutral"` when skipped or failed. */
  function TierLevel(c: V1Record, tier: Reply<Option<string>>): (level: string)
    ensures !StrTruthy(c.userkey) ==> level == "neutral"
    ensures tier.TransportError? ==> level == "neutral"
    ensures level != ""
  {
    if !StrTruthy(c.userkey) then "neutral"
    else match tier
      case Delivered(l) => OptStrOr(l, "neutral")
      case TransportError => "neutral"
  }

  /** The first v2 value whose username equals `name` ignoring case. */
  function FirstV2Match(vs: seq<V2Record>, name: string): (r: Option<V2Record>)
    ensures r.Some? ==> r.value in vs && r.value.username.Some? && SameIgnoringCase(r.value.username.value, name)
    ensures r.None? ==> forall i :: 0 <= i < |vs| ==> !(vs[i].username.Some? && SameIgnoringCase(vs[i].username.value, name))
  {
    if |vs| == 0 then None
    else if vs[0].username.Some? && SameIgnoringCase(vs[0].username.value, name) then Some(vs[0])
    else FirstV2Match(vs[1..], name)
  }

  /**
    The v2 enrichment record. Skipped without a truthy userkey; absent on a
    transport error or an empty reply; when the chosen candidate has no
    username, `user.username.toLowerCase()` throws inside the guarded lookup,
    so it is absent too.
   */
  function Detail(c: V1Record, v2: Reply<V2Body>): Option<V2Record> {
    if !StrTruthy(c.userkey) then None
    else match v2
      case TransportError => None
      case Delivered(body) =>
        if body.values.None? || |body.values.value| == 0 then None
        else if c.username.None? then None
        else FirstV2Match(body.values.value, c.username.value)
  }

  /** Enrichment is gated on the userkey and only ever uses a v2 record with the candidate's username. */
  lemma DetailMatchesCandidate(c: V1Record, v2: Reply<V2Body>)
    ensures !StrTruthy(c.userkey) ==> Detail(c, v2).None?
    ensures Detail(c, v2).Some? ==>
              && v2.Delivered? && v2.body.values.Some? && Detail(c, v2).value in v2.body.values.value
              && c.username.Some? && Detail(c, v2).value.username.Some?
              && SameIgnoringCase(Detail(c, v2).value.username.value, c.username.value)
  {
  }

  /** The statistics a user gets when no v2 record supplies them. */
  const DefaultStats: Stats :=
    Stats(Some(ReviewStats(Some(Polarity(0, 0, 0)), None)),
          Some(VouchStats(Some(VouchSide(0, 0)), Some(VouchSide(0, 0)))))

  /** The fallback userkey: `user_` and the profile id, or the text of a random draw. */
  function FallbackUserkey(c: V1Record, noise: string): string {
    "user_" + (if NumTruthy(c.profileId) then DecimalString(c.profileId.value) else noise)
  }

  /** The `EthosUser` built from the chosen candidate, its tier and its optional v2 record. */
  function Normalize(c: V1Record, level: string, detail: Option<V2Record>, noise: string): EthosUser {
    EthosUser(
      userkey := if StrTruthy(c.userkey) then c.userkey.value else FallbackUserkey(c, noise),
      username := c.username,
      displayName := c.name,
      avatar := OptStrOr(c.avatar, ""),
      bio := OptStrOr(c.description, ""),
      twitterUsername := c.username,
      twitterFollowers := if detail.Some? then OptNumOr(detail.value.twitterFollowers, 0) else 0,
      twitterVerified := detail.Some? && detail.value.twitterVerified == Some(true),
      score := V1Score(c),
      xp := if detail.Some? then OptNumOr(detail.value.xpTotal, 0) else 0,
      xpStreak := if detail.Some? then OptNumOr(detail.value.xpStreakDays, 0) else 0,
      level := Some(level),
      stats := if detail.Some? && detail.value.stats.Some? then detail.value.stats else Some(DefaultStats))
  }

  /** Field defaulting of the normalised record. */
  lemma NormalizeDefaults(c: V1Record, level: string, detail: Option<V2Record>, noise: string)
    ensures var u := Normalize(c, level, detail, noise);
            && u.score == (if c.score.Some? then c.score.value else 0)
            && u.level == Some(level)
            && (detail.None? ==> u.xp == 0 && u.xpStreak == 0 && u.twitterFollowers == 0 && !u.twitterVerified)
            && (detail.Some? && detail.value.xpTotal.Some? ==> u.xp == detail.value.xpTotal.value)
            && (detail.Some? && detail.value.xpStreakDays.Some? ==> u.xpStreak == detail.value.xpStreakDays.value)
            && (detail.Some? && detail.value.twitterFollowers.Some? ==> u.twitterFollowers == detail.value.twitterFollowers.value)
            && (detail.Some? && detail.value.stats.Some? ==> u.stats == detail.value.stats)
            && ((detail.None? || detail.value.stats.None?) ==>
                  u.stats.Some? && ReceivedCounts(u.stats) == Polarity(0, 0, 0)
                  && VouchGiven(u.stats) == VouchSide(0, 0) && VouchReceived(u.stats) == VouchSide(0, 0))
            && u.username == c.username && u.twitterUsername == c.username && u.displayName == c.name
            && (StrTruthy(c.userkey) ==> u.userkey == c.userkey.value)
            && (!StrTruthy(c.userkey) ==> StartsWith(u.userkey, "user_"))
  {
    var u := Normalize(c, level, detail, noise);
    if !StrTruthy(c.userkey) {
      assert u.userkey[..5] == "user_";
    }
  }

  /** The random draws behind the mock user's numbers; each is reduced into its `Math.floor(Math.random() * N)` range. */
  datatype MockDraws = MockDraws(
    followers: nat, score: nat, xp: nat, streak: nat,
    positive: nat, neutral: nat, negative: nat,
    givenEth: nat, givenCount: nat, receivedEth: nat, receivedCount: nat)

  /** The mock user returned when the search step fails. */
  function MockUser(handle: string, d: MockDraws): EthosUser {
    EthosUser(
      userkey := "mock_" + handle,
      username := Some(handle),
      displayName := Some(handle),
      avatar := "",
      bio := "",
      twitterUsername := Some(handle),
      twitterFollowers := d.followers % 10000,
      twitterVerified := false,
      score := d.score % 1000,
      xp := d.xp % 5000,
      xpStreak := d.streak % 30,
      level := Some("neutral"),
      stats := Some(Stats(
        Some(ReviewStats(Some(Polarity(d.positive % 10, d.neutral % 5, d.negative % 3)), None)),
        Some(VouchStats(Some(VouchSide((d.givenEth % 50) * WeiPerEth, d.givenCount % 20)),
                        Some(VouchSide((d.receivedEth % 100) * WeiPerEth, d.receivedCount % 30)))))))
  }

  /** The mock user's identity comes from the input; its numbers stay within their draw ranges. */
  lemma MockUserShape(handle: string, d: MockDraws)
    ensures var u := MockUser(handle, d);
            && u.username == Some(handle) && u.displayName == Some(handle) && u.twitterUsername == Some(handle)
            && u.userkey == "mock_" + handle
            && u.level == Some("neutral")
            && u.score < 1000 && u.xp < 5000 && u.xpStreak < 30 && u.twitterFollowers < 10000
            && PolaritySum(ReceivedCounts(u.stats)) < 10 + 5 + 3
            && VouchGiven(u.stats).amountWeiTotal % WeiPerEth == 0
            && VouchGiven(u.stats).amountWeiTotal < 50 * WeiPerEth
            && VouchReceived(u.stats).amountWeiTotal < 100 * WeiPerEth
  {
  }

  /** Every mock score in [0, 1000) is reachable. */
  lemma MockScoreRange(handle: string, s: nat)
    requires s < 1000
    ensures exists d: MockDraws :: MockUser(handle, d).score == s
  {
    var d := MockDraws(0, s, 0, 0, 0, 0, 0, 0, 0, 0, 0);
    assert MockUser(handle, d).score == s;
  }

  /** The user the network path produces: normalised candidate, or the mock user on any search failure. */
  function FetchUser(handle: string, search: Reply<V1Body>, tier: Reply<Option<string>>,
                     v2: Reply<V2Body>, noise: string, draws: MockDraws): EthosUser
  {
    match search
    case Delivered(body) =>
      if HasResults(body) then
        var c := ChooseCandidate(body.values.value, handle);
        Normalize(c, TierLevel(c, tier), Detail(c, v2), noise)
      else MockUser(handle, draws)
    case TransportError => MockUser(handle, draws)
  }

  /** The returned user, the cache afterwards, and whether the network was consulted. */
  datatype Resolution = Resolution(user: EthosUser, cache: Cache<EthosUser>, searched: bool)

  /** `getUserByTwitterUsername(handle)` at clock `now`. */
  function Resolve(cache: Cache<EthosUser>, handle: string, now: int, search: Reply<V1Body>,
                   tier: Reply<Option<string>>, v2: Reply<V2Body>, noise: string, draws: MockDraws): (res: Resolution)
    ensures Get(res.cache, ProfileKey(handle), now, CacheDuration) == Some(res.user)
    ensures !res.searched ==> res.cache == cache
    ensures res.searched <==> Get(cache, ProfileKey(handle), now, CacheDuration).None?
    ensures res.searched ==> res.cache == Put(cache, ProfileKey(handle), res.user, now)
  {
    var key := ProfileKey(handle);
    match Get(cache, key, now, CacheDuration)
    case Some(u) => Resolution(u, cache, false)
    case None =>
      var user := FetchUser(handle, search, tier, v2, noise, draws);
      Resolution(user, Put(cache, key, user, now), true)
  }

  /** A failed or empty search yields the mock user for the input handle. */
  lemma FailedSearchYieldsMock(cache: Cache<EthosUser>, handle: string, now: int, search: Reply<V1Body>,
                               tier: Reply<Option<string>>, v2: Reply<V2Body>, noise: string, draws: MockDraws)
    requires search.TransportError? || !HasResults(search.body)
    requires Get(cache, ProfileKey(handle), now, CacheDuration).None?
    ensures Resolve(cache, handle, now, search, tier, v2, noise, draws).user == MockUser(handle, draws)
  {
  }

  /**
    A second resolution of the same handle, or of any case variant of it,
    within the cache duration is served from the cache whatever the network
    would answer.
   */
  lemma SecondCallHitsCache(cache: Cache<EthosUser>, handle: string, now: int, search: Reply<V1Body>,
                            tier: Reply<Option<string>>, v2: Reply<V2Body>, noise: string, draws: MockDraws,
                            handle2: string, later: int, search2: Reply<V1Body>,
                            tier2: Reply<Option<string>>, v22: Reply<V2Body>, noise2: string, draws2: MockDraws)
    requires SameIgnoringCase(handle, handle2)
    requires now <= later < now + CacheDuration
    requires Get(cache, ProfileKey(handle), now, CacheDuration).None?
    ensures var first := Resolve(cache, handle, now, search, tier, v2, noise, draws);
            var second := Resolve(first.cache, handle2, later, search2, tier2, v22, noise2, draws2);
            first.searched && !second.searched && second.user == first.user
  {
    ProfileKeySharedByCase(handle, handle2);
  }

  /** After the cache is cleared, resolution always consults the network. */
  lemma ClearForcesSearch(handle: string, now: int, search: Reply<V1Body>,
                          tier: Reply<Option<string>>, v2: Reply<V2Body>, noise: string, draws: MockDraws)
    ensures Resolve(Clear(), handle, now, search, tier, v2, noise, draws).searched
  {
  }

  /** Given two exact matches of which only the lower-scored has a profile id, that one is chosen. */
  lemma ProfileIdBeatsScore(a: V1Record, b: V1Record, handle: string)
    requires IsExactMatch(a, handle) && IsExactMatch(b, handle)
    requires !NumTruthy(a.profileId) && NumTruthy(b.profileId)
    requires V1Score(a) > V1Score(b)
    ensures ChooseCandidate([a, b], handle) == b
  {
    assert ExactMatches([a, b], handle) == [a, b] by {
      assert [a, b][1..] == [b];
    }
  }
}

=== FILE: profile_search.dfy ===
/**
  The standalone profile search page: picking a typeahead entry remounts the
  search box, fetches the full user, and shows a record that merges the
  fetched user with the picked entry field by field.

  The user comes from the data layer's resolution, which always yields a
  user (a failed search becomes the placeholder user), so the page's error
  branch is never taken in this model.
 */
module ProfileSearch {
  import opened Values
  import opened Types
  import opened TtlCache
  import opened Upstream
  import opened ProfileResolver
  import ImageGenerator

  datatype ReviewsReceived = ReviewsReceived(total: nat, positive: nat, neutral: nat, negative: nat)

  /** One direction of vouching as shown: a count and an amount in ether. */
  datatype VouchSummary = VouchSummary(count: nat, ethAmount: real)

  /** The record the page shows. */
  datatype ProfileData = ProfileData(
    score: nat,
    level: string,
    xp: nat,
    xpStreak: nat,
    username: string,
    displayName: string,
    avatar: string,
    bio: string,
    twitterUsername: string,
    reviewsReceived: ReviewsReceived,
    vouchesGiven: VouchSummary,
    vouchesReceived: VouchSummary)

  /** The merged record: each field from the fetched user when truthy, else from the picked entry. */
  function Merge(u: EthosUser, p: SearchResult): (d: ProfileData)
    ensures d.level != "" && d.reviewsReceived.total == d.reviewsReceived.positive + d.reviewsReceived.neutral + d.reviewsReceived.negative
  {
    var rc := ReceivedCounts(u.stats);
    ProfileData(
      score := NumOr(u.score, p.score) as nat,
      level := OptStrOr(u.level, "neutral"),
      xp := NumOr(u.xp, p.xpTotal) as nat,
      xpStreak := NumOr(u.xpStreak, p.xpStreakDays) as nat,
      username := OptStrOr(u.username, p.username),
      displayName := OptStrOr(u.displayName, p.displayName),
      avatar := StrOr(u.avatar, p.avatarUrl),
      bio := u.bio,
      twitterUsername := OptStrOr(u.twitterUsername, p.username),
      reviewsReceived := ReviewsReceived(rc.positive + rc.neutral + rc.negative, rc.positive, rc.neutral, rc.negative),
      vouchesGiven := VouchSummary(VouchGiven(u.stats).count, WeiToEth(VouchGiven(u.stats).amountWeiTotal)),
      vouchesReceived := VouchSummary(VouchReceived(u.stats).count, WeiToEth(VouchReceived(u.stats).amountWeiTotal)))
  }

  /**
    Each merged field is the fetched one exactly when that is truthy, and the
    picked entry's otherwise; so a fetched score of 0 shows the entry's score.
   */
  lemma MergePrefersFetched(u: EthosUser, p: SearchResult)
    ensures var d := Merge(u, p);
      && (d.score == if u.score != 0 then u.score else p.score)
      && (d.xp == if u.xp != 0 then u.xp else p.xpTotal)
      && (d.xpStreak == if u.xpStreak != 0 then u.xpStreak else p.xpStreakDays)
      && (d.username == if StrTruthy(u.username) then u.username.value else p.username)
      && (d.displayName == if StrTruthy(u.displayName) then u.displayName.value else p.displayName)
      && (d.avatar == if u.avatar != "" then u.avatar else p.avatarUrl)
      && (d.twitterUsername == if StrTruthy(u.twitterUsername) then u.twitterUsername.value else p.username)
  {
  }

  /**
    A merged field is empty (or 0) only when both sources are, and a merge
    with an entry whose fields are all empty is the fetched user's own.
   */
  lemma MergeFalsyOnlyWhenBothFalsy(u: EthosUser, p: SearchResult)
    ensures var d := Merge(u, p);
      && (d.score == 0 <==> u.score == 0 && p.score == 0)
      && (d.username == "" <==> !StrTruthy(u.username) && p.username == "")
      && (d.twitterUsername == "" <==> !StrTruthy(u.twitterUsername) && p.username == "")
      && (d.avatar == "" <==> u.avatar == "" && p.avatarUrl == "")
  {
  }

  /** A level missing or empty reads "neutral", any other is kept; the biography is the user's, possibly empty. */
  lemma MergeLevelAndBio(u: EthosUser, p: SearchResult)
    ensures Merge(u, p).level == (if StrTruthy(u.level) then u.level.value else "neutral")
    ensures Merge(u, p).bio == u.bio
  {
  }

  /**
    The shown statistics are the user's own, missing counts read as 0: the
    review total is the one on the comparison image, and the vouch rows
    carry the user's counts and amounts.
   */
  lemma MergeStatistics(u: EthosUser, p: SearchResult)
    ensures var d := Merge(u, p);
      && d.reviewsReceived.total == ImageGenerator.GetKeyStats(u).totalReviews
      && d.reviewsReceived.positive == ReceivedCounts(u.stats).positive
      && d.reviewsReceived.neutral == ReceivedCounts(u.stats).neutral
      && d.reviewsReceived.negative == ReceivedCounts(u.stats).negative
      && d.vouchesReceived.ethAmount * (WeiPerEth as real) == VouchReceived(u.stats).amountWeiTotal as real
      && d.vouchesGiven.ethAmount * (WeiPerEth as real) == VouchGiven(u.stats).amountWeiTotal as real
    ensures u.stats.None? ==> Merge(u, p).reviewsReceived == ReviewsReceived(0, 0, 0, 0)
  {
    WeiToEthScales(VouchReceived(u.stats).amountWeiTotal);
    WeiToEthScales(VouchGiven(u.stats).amountWeiTotal);
  }

  /** The page: the picked entry, the shown record, the error text, and the key of the search box. */
  datatype PageState = PageState(
    selected: Option<SearchResult>,
    userData: Option<ProfileData>,
    loading: bool,
    error: string,
    searchKey: nat)

  const Initial: PageState := PageState(None, None, false, "", 0)

  /** The synchronous start of `handleProfileSelect`. */
  function BeginSelect(s: PageState, p: SearchResult): (s': PageState)
    ensures s'.searchKey == s.searchKey + 1
    ensures s'.userData.None? && s'.error == "" && s'.loading && s'.selected == Some(p)
  {
    PageState(Some(p), None, true, "", s.searchKey + 1)
  }

  /** A whole selection: the start, the resolution of the picked username, and the merged record. */
  function Select(s: PageState, p: SearchResult, cache: Cache<EthosUser>, now: int, search: Reply<V1Body>,
                  tier: Reply<Option<string>>, v2: Reply<V2Body>, noise: string, draws: MockDraws): (r: (PageState, Cache<EthosUser>))
    ensures r.0.searchKey == s.searchKey + 1 && !r.0.loading && r.0.error == "" && r.0.selected == Some(p)
  {
    var started := BeginSelect(s, p);
    var res := Resolve(cache, p.username, now, search, tier, v2, noise, draws);
    (started.(userData := Some(Merge(res.user, p)), loading := false), res.cache)
  }

  /**
    After a selection the record shown is the merge of the user the data
    layer resolves for the picked username, and that user is then cached.
   */
  lemma SelectShowsResolvedUser(s: PageState, p: SearchResult, cache: Cache<EthosUser>, now: int, search: Reply<V1Body>,
                                tier: Reply<Option<string>>, v2: Reply<V2Body>, noise: string, draws: MockDraws)
    ensures var r := Select(s, p, cache, now, search, tier, v2, noise, draws);
            var res := Resolve(cache, p.username, now, search, tier, v2, noise, draws);
      && r.0.userData == Some(Merge(res.user, p))
      && Get(r.1, ProfileKey(p.username), now, CacheDuration) == Some(res.user)
  {
  }

  /** The state after starting each selection of `ps` in turn. */
  function BeginAll(s: PageState, ps: seq<SearchResult>): PageState
    decreases |ps|
  {
    if |ps| == 0 then s else BeginAll(BeginSelect(s, ps[0]), ps[1..])
  }

  /**
    Every selection gives the search box a new key, so the box is remounted
    empty: after `n` selections the key has moved on by exactly `n`, and the
    last picked entry is the selected one.
   */
  lemma {:induction false} KeysCountSelections(s: PageState, ps: seq<SearchResult>)
    ensures BeginAll(s, ps).searchKey == s.searchKey + |ps|
    ensures |ps| > 0 ==> BeginAll(s, ps).selected == Some(ps[|ps| - 1])
    decreases |ps|
  {
    if |ps| > 0 {
      KeysCountSelections(BeginSelect(s, ps[0]), ps[1..]);
    }
  }
}

=== FILE: search_dropdown.dfy ===
/**
  The search box with a dropdown of suggestions: when it searches, how long
  it waits before searching, the keyboard machine over the highlighted row,
  the exact search behind Enter and the Search button, and selection.

  Each handler is a transition that also names what it sets off: a
  suggestion search, an exact search, or handing a profile to the parent.
  Whether an answer is stale (the abort of an older request) is an argument.
 */
module SearchDropdown {
  import opened Values
  import opened Text
  import opened Types
  import opened SelectionIndex

  /** Queries shorter than this are not searched. */
  const MinQueryLength: nat := 3

  /** Milliseconds the box waits after a keystroke before searching a long enough query. */
  const SearchDelay: nat := 150

  datatype DropdownState = DropdownState(
    query: string,
    results: seq<SearchResult>,
    isOpen: bool,
    loading: bool,
    selectedIndex: int)

  const Initial: DropdownState := DropdownState("", [], false, false, -1)

  datatype Key = ArrowDown | ArrowUp | Enter | Escape | OtherKey

  /** What a transition sets off. */
  datatype Effect =
    | NoEffect
    | ScheduleSearch(query: string, delay: nat)
    | SuggestionSearch(query: string)
    | ExactSearch(query: string)
    | Chosen(profile: SearchResult)

  datatype Step = Step(state: DropdownState, effect: Effect)

  /** The debounce delay chosen for a new query. */
  function DebounceDelay(query: string): nat {
    if |query| >= MinQueryLength then SearchDelay else 0
  }

  /** `performSearch`: a short query empties and closes the list; a longer one opens it, loading. */
  function PerformSearch(s: DropdownState, query: string): (t: Step)
    ensures |query| < MinQueryLength ==> t.effect == NoEffect && t.state.results == [] && !t.state.isOpen
    ensures |query| >= MinQueryLength ==> t.effect == SuggestionSearch(query) && t.state.isOpen && t.state.loading
    ensures t.state.selectedIndex == s.selectedIndex && t.state.query == s.query
  {
    if |query| < MinQueryLength then Step(s.(results := [], isOpen := false), NoEffect)
    else Step(s.(loading := true, isOpen := true), SuggestionSearch(query))
  }

  /**
    `handleInputChange`: the typed text becomes the query, and a suggestion
    search of it is scheduled (replacing any pending one) after the
    debounce delay: 150 ms for a query of at least 3 characters, else 0.
   */
  function InputChanged(s: DropdownState, query: string): (t: Step)
    ensures t.state == s.(query := query)
    ensures t.effect.ScheduleSearch? && t.effect.query == query
    ensures t.effect.delay == SearchDelay <==> |query| >= MinQueryLength
    ensures t.effect.delay == 0 <==> |query| < MinQueryLength
  {
    Step(s.(query := query), ScheduleSearch(query, DebounceDelay(query)))
  }

  /**
    A typed query is what the box then searches: when the scheduled search
    runs, it searches the typed text exactly when that is long enough, the
    query stays the typed text, and the Search button then looks it up.
   */
  lemma TypedQueryIsSearched(s: DropdownState, query: string)
    ensures var u := PerformSearch(InputChanged(s, query).state, query);
      && u.state.query == query
      && (u.effect == SuggestionSearch(query) <==> |query| >= MinQueryLength)
      && (|query| >= MinQueryLength ==> BeginExactSearch(u.state).effect == ExactSearch(query))
      && (|query| < MinQueryLength ==> u.effect == NoEffect && !u.state.isOpen)
  {
  }

  /** The box waits only before a query it will actually search. */
  lemma DelayOnlyBeforeSearch(s: DropdownState, query: string)
    ensures DebounceDelay(query) == 0 <==> PerformSearch(s, query).effect == NoEffect
    ensures DebounceDelay(query) == SearchDelay <==> PerformSearch(s, query).effect.SuggestionSearch?
  {
  }

  /** The answer of a suggestion search: a current answer replaces the list and clears the highlight; a stale one is dropped. */
  function SuggestionsArrived(s: DropdownState, results: seq<SearchResult>, stale: bool): (s': DropdownState)
    ensures stale ==> s' == s
    ensures !stale ==> s'.results == results && s'.selectedIndex == -1 && !s'.loading
    ensures InRange(s'.selectedIndex, |s'.results|) || s' == s
  {
    if stale then s else s.(results := results, selectedIndex := -1, loading := false)
  }

  /** `handleProfileSelect`: the query becomes the username, the list closes, the highlight clears, the parent gets the profile. */
  function SelectProfile(s: DropdownState, p: SearchResult): (t: Step)
    ensures t.state.query == p.username && !t.state.isOpen && t.state.selectedIndex == -1
    ensures t.effect == Chosen(p)
    ensures t.state.results == s.results
  {
    Step(s.(query := p.username, isOpen := false, selectedIndex := -1), Chosen(p))
  }

  /** The start of `performExactSearch`: nothing for a short query, otherwise loading and an exact search. */
  function BeginExactSearch(s: DropdownState): Step {
    if |s.query| < MinQueryLength then Step(s, NoEffect)
    else Step(s.(loading := true), ExactSearch(s.query))
  }

  /** `handleKeyDown`. */
  function KeyDown(s: DropdownState, key: Key): Step {
    if !s.isOpen then Step(s, NoEffect)
    else match key
      case ArrowDown => Step(s.(selectedIndex := Down(s.selectedIndex, |s.results|)), NoEffect)
      case ArrowUp => Step(s.(selectedIndex := Up(s.selectedIndex)), NoEffect)
      case Enter =>
        if 0 <= s.selectedIndex < |s.results| then SelectProfile(s, s.results[s.selectedIndex])
        else BeginExactSearch(s)
      case Escape => Step(s.(isOpen := false, selectedIndex := -1), NoEffect)
      case OtherKey => Step(s, NoEffect)
  }

  /** While the list is closed every key is ignored. */
  lemma ClosedIgnoresKeys(s: DropdownState, key: Key)
    requires !s.isOpen
    ensures KeyDown(s, key) == Step(s, NoEffect)
  {
  }

  /** The keys keep a highlight that is in range in range, and never change the list. */
  lemma KeysKeepIndexInRange(s: DropdownState, key: Key)
    requires InRange(s.selectedIndex, |s.results|)
    ensures InRange(KeyDown(s, key).state.selectedIndex, |KeyDown(s, key).state.results|)
    ensures KeyDown(s, key).state.results == s.results
  {
    MovesKeepInRange(s.selectedIndex, |s.results|);
  }

  /**
    Enter hands a profile to the parent exactly when the list is open and a
    row is highlighted, and the profile is that row; with nothing
    highlighted it starts an exact search of a long enough query instead.
   */
  lemma EnterSelectsHighlightedRow(s: DropdownState)
    ensures KeyDown(s, Enter).effect.Chosen? <==> s.isOpen && 0 <= s.selectedIndex < |s.results|
    ensures KeyDown(s, Enter).effect.Chosen? ==> KeyDown(s, Enter).effect.profile == s.results[s.selectedIndex]
    ensures s.isOpen && !(0 <= s.selectedIndex < |s.results|) ==>
      KeyDown(s, Enter).effect == (if |s.query| >= MinQueryLength then ExactSearch(s.query) else NoEffect)
  {
  }

  /** Escape closes the list and clears the highlight. */
  lemma EscapeCloses(s: DropdownState)
    requires s.isOpen
    ensures !KeyDown(s, Escape).state.isOpen && KeyDown(s, Escape).state.selectedIndex == -1
  {
  }

  /** The first result whose username equals the query ignoring case. */
  function FirstExact(results: seq<SearchResult>, query: string): (r: Option<SearchResult>)
    ensures r.Some? ==> exists i :: 0 <= i < |results| && results[i] == r.value
                          && SameIgnoringCase(r.value.username, query)
                          && forall j :: 0 <= j < i ==> !SameIgnoringCase(results[j].username, query)
    ensures r.None? ==> forall i :: 0 <= i < |results| ==> !SameIgnoringCase(results[i].username, query)
  {
    if |results| == 0 then None
    else if SameIgnoringCase(results[0].username, query) then Some(results[0])
    else
      var r := FirstExact(results[1..], query);
      assert forall i :: 1 <= i < |results| ==> results[i] == results[1..][i - 1];
      r
  }

  /**
    The answer of the exact search: the first exact match is selected;
    without one the answer is shown as the list. Loading ends either way.
   */
  function ExactSearchArrived(s: DropdownState, results: seq<SearchResult>): (t: Step) {
    match FirstExact(results, s.query)
    case Some(p) =>
      var t := SelectProfile(s, p);
      Step(t.state.(loading := false), t.effect)
    case None => Step(s.(results := results, isOpen := true, loading := false), NoEffect)
  }

  /**
    An exact search selects a profile exactly when some result matches the
    typed query ignoring case, and then the query becomes that username,
    which equals the typed one ignoring case.
   */
  lemma ExactSearchOutcome(s: DropdownState, results: seq<SearchResult>)
    ensures var t := ExactSearchArrived(s, results);
      && !t.state.loading
      && (t.effect.Chosen? <==> exists i :: 0 <= i < |results| && SameIgnoringCase(results[i].username, s.query))
      && (t.effect.Chosen? ==> t.effect.profile in results && SameIgnoringCase(t.state.query, s.query))
      && (t.effect.NoEffect? ==> t.state.results == results && t.state.isOpen)
  {
  }

  /** `isSearchButtonDisabled`. */
  function ButtonDisabled(s: DropdownState): bool {
    |s.query| < MinQueryLength || s.loading
  }

  /** An enabled Search button always starts an exact search of the query. */
  lemma EnabledButtonSearches(s: DropdownState)
    requires !ButtonDisabled(s)
    ensures BeginExactSearch(s).effect == ExactSearch(s.query)
  {
  }

  /** A mouse press outside the widget closes the list and clears the highlight; the query and rows stay. */
  function ClickOutside(s: DropdownState): (s': DropdownState)
    ensures !s'.isOpen && s'.selectedIndex == -1
    ensures s'.query == s.query && s'.results == s.results && s'.loading == s.loading
  {
    s.(isOpen := false, selectedIndex := -1)
  }

  /**
    A click outside an open list closes it exactly as Escape does; after it
    every key is ignored until focus reopens the list, with no row
    highlighted.
   */
  lemma ClickOutsideLikeEscape(s: DropdownState, key: Key)
    ensures s.isOpen ==> KeyDown(s, Escape) == Step(ClickOutside(s), NoEffect)
    ensures KeyDown(ClickOutside(s), key) == Step(ClickOutside(s), NoEffect)
    ensures Focus(ClickOutside(s)).isOpen <==> |s.query| >= MinQueryLength && |s.results| > 0
    ensures Focus(ClickOutside(s)).selectedIndex == -1
  {
    ClosedIgnoresKeys(ClickOutside(s), key);
  }

  /** Focusing the box reopens the list only for a long enough query with results. */
  function Focus(s: DropdownState): (s': DropdownState)
    ensures s'.isOpen <==> s.isOpen || (|s.query| >= MinQueryLength && |s.results| > 0)
  {
    if |s.query| >= MinQueryLength && |s.results| > 0 then s.(isOpen := true) else s
  }
}

=== FILE: search_overlay.dfy ===
/**
  The side sheet in which a profile is searched for one side of the
  comparison: the query rule, the keyboard machine over the highlighted row,
  selection, and the colour of each row's score.

  A new answer replaces the rows without clearing the highlight, and Enter
  checks only that a row is highlighted, not that the row still exists.
  `KeyDownAsWritten` models that; `KeyDown` adds the missing bound, and the
  lemmas below relate the two.
 */
module SearchOverlay {
  import opened Values
  import opened Text
  import opened Types
  import opened SelectionIndex
  import ComparisonView

  /** Milliseconds the sheet waits after a keystroke before searching. */
  const SearchDelay: nat := 200

  datatype OverlayState = OverlayState(query: string, results: seq<SearchResult>, loading: bool, selectedIndex: int)

  const Initial: OverlayState := OverlayState("", [], false, -1)

  datatype Key = ArrowDown | ArrowUp | Enter | OtherKey

  /**
    What a transition sets off. `Picked` hands a profile to the parent and
    closes the sheet; `Picked(None)` is the parent receiving `undefined`.
   */
  datatype Effect = NoEffect | ScheduleSearch(query: string, delay: nat) | Picked(profile: Option<SearchResult>)

  datatype Step = Step(state: OverlayState, effect: Effect)

  /** A new query: a blank one empties the rows and searches nothing; any other is searched after the delay. */
  function QueryChanged(s: OverlayState, query: string): (t: Step)
    ensures t.state.query == query && t.state.selectedIndex == s.selectedIndex
    ensures Trim(query) == [] ==> t.state.results == [] && t.effect == NoEffect
    ensures Trim(query) != [] ==> t.state.results == s.results && t.effect == ScheduleSearch(query, SearchDelay)
  {
    var s' := s.(query := query);
    if Trim(query) == [] then Step(s'.(results := []), NoEffect)
    else Step(s', ScheduleSearch(query, SearchDelay))
  }

  /** A query made only of white space searches nothing, whatever its length. */
  lemma BlankQuerySearchesNothing(s: OverlayState, query: string)
    requires forall i :: 0 <= i < |query| ==> IsJsSpace(query[i])
    ensures QueryChanged(s, query) == Step(s.(query := query, results := []), NoEffect)
  {
    TrimEmptyIff(query);
  }

  /** The delayed search begins: the sheet shows that it is loading; the query, rows and highlight stay. */
  function SearchStarted(s: OverlayState): (s': OverlayState)
    ensures s'.loading
    ensures s'.query == s.query && s'.results == s.results && s'.selectedIndex == s.selectedIndex
  {
    s.(loading := true)
  }

  /**
    Once its answer, or the empty list of a failed search, has arrived, a
    search leaves no trace of having started: loading is off again and the
    rows are the answer.
   */
  lemma SearchRoundTrip(s: OverlayState, results: seq<SearchResult>)
    ensures ResultsArrived(SearchStarted(s), results) == ResultsArrived(s, results)
    ensures ResultsArrived(SearchStarted(s), results) == s.(results := results, loading := false)
  {
  }

  /** The answer of a search replaces the rows and ends loading; the highlight is left as it was. */
  function ResultsArrived(s: OverlayState, results: seq<SearchResult>): (s': OverlayState)
    ensures s'.results == results && !s'.loading
    ensures s'.selectedIndex == s.selectedIndex && s'.query == s.query
  {
    s.(results := results, loading := false)
  }

  /** `handleSelectProfile`: the parent gets the profile, and the sheet is emptied and closed. */
  function SelectProfile(s: OverlayState, p: Option<SearchResult>): (t: Step)
    ensures t.state == Initial.(loading := s.loading)
    ensures t.effect == Picked(p)
  {
    Step(OverlayState("", [], s.loading, -1), Picked(p))
  }

  /** `results[i]`: the row, or `undefined` outside the list. */
  function RowAt(results: seq<SearchResult>, i: int): Option<SearchResult> {
    if 0 <= i < |results| then Some(results[i]) else None
  }

  /** `handleKeyDown` as written: Enter acts on any highlight of 0 or more. */
  function KeyDownAsWritten(s: OverlayState, key: Key): Step {
    match key
    case ArrowDown => Step(s.(selectedIndex := Down(s.selectedIndex, |s.results|)), NoEffect)
    case ArrowUp => Step(s.(selectedIndex := Up(s.selectedIndex)), NoEffect)
    case Enter =>
      if s.selectedIndex >= 0 then SelectProfile(s, RowAt(s.results, s.selectedIndex))
      else Step(s, NoEffect)
    case OtherKey => Step(s, NoEffect)
  }

  /** `handleKeyDown` with Enter bounded by the rows, as in the dropdown. */
  function KeyDown(s: OverlayState, key: Key): Step {
    match key
    case ArrowDown => Step(s.(selectedIndex := Down(s.selectedIndex, |s.results|)), NoEffect)
    case ArrowUp => Step(s.(selectedIndex := Up(s.selectedIndex)), NoEffect)
    case Enter =>
      if 0 <= s.selectedIndex < |s.results| then SelectProfile(s, Some(s.results[s.selectedIndex]))
      else Step(s, NoEffect)
    case OtherKey => Step(s, NoEffect)
  }

  /** While the rows are unchanged, the arrow keys keep a highlight that is in range in range. */
  lemma ArrowsKeepIndexInRange(s: OverlayState, key: Key)
    requires InRange(s.selectedIndex, |s.results|)
    ensures var t := KeyDown(s, key);
      InRange(t.state.selectedIndex, |t.state.results|)
  {
    MovesKeepInRange(s.selectedIndex, |s.results|);
  }

  /** As long as the highlight is in range, the bounded Enter and the written one behave identically. */
  lemma BoundedAgreesInRange(s: OverlayState, key: Key)
    requires InRange(s.selectedIndex, |s.results|)
    ensures KeyDown(s, key) == KeyDownAsWritten(s, key)
  {
  }

  /**
    The written handler: a new answer with fewer rows leaves the highlight
    past the end, and Enter then hands `undefined` to the parent.
   */
  lemma EnterAfterShorterAnswerPicksUndefined(p1: SearchResult, p2: SearchResult)
    ensures var s0 := OverlayState("abc", [p1, p2], false, -1);
            var s1 := KeyDownAsWritten(KeyDownAsWritten(s0, ArrowDown).state, ArrowDown).state;
            var s2 := ResultsArrived(s1, [p1]);
      && InRange(s1.selectedIndex, |s1.results|)
      && !InRange(s2.selectedIndex, |s2.results|)
      && KeyDownAsWritten(s2, Enter).effect == Picked(None)
  {
  }

  /**
    The bounded handler: Enter hands over a profile exactly when a row in the
    list is highlighted, and that row is the one handed over; it never
    hands over `undefined`, whatever state the answers left.
   */
  lemma EnterPicksOnlyListedRows(s: OverlayState)
    ensures KeyDown(s, Enter).effect.Picked? <==> 0 <= s.selectedIndex < |s.results|
    ensures KeyDown(s, Enter).effect.Picked? ==> KeyDown(s, Enter).effect.profile == Some(s.results[s.selectedIndex])
    ensures KeyDown(s, Enter).effect.Picked? ==> KeyDown(s, Enter).state == Initial.(loading := s.loading)
  {
  }

  /** The colour of a row's score, by the same brackets as the comparison page's star. */
  function ScoreColor(score: int): string {
    if score >= 2000 then "#7a5eaf"
    else if score >= 1600 then "#117f31"
    else if score >= 1200 then "#c1c0b6"
    else if score >= 800 then "#c29011"
    else "#b72c37"
  }

  /** The sheet's score colours and the comparison page's star colours agree on every score. */
  lemma ScoreColorIsStarColor(score: int)
    ensures ScoreColor(score) == ComparisonView.StarColor(score)
    ensures ScoreColor(score) == ComparisonView.StarPalette[ComparisonView.StarBracket(score)]
  {
    ComparisonView.StarColorPartition(score, score);
  }
}

=== FILE: search_profiles.dfy ===
/**
  `searchProfiles`: the typeahead search behind both search widgets.

  A query shorter than three characters is answered with nothing. Queries of
  three to twenty characters are taken to be exact handles and bypass the
  search cache; longer queries are served from it while fresh and stored in
  it afterwards. The v1 search values become entries, are de-duplicated by
  username (preferring an entry with a profile id), filtered against the
  query, ranked (exact username first, then a profile id among exact
  matches, then score descending) and cut to ten.

  The `Math.random()` that stands in for a missing profile id is the
  argument `draw`, indexed by the position of the value.
 */
module SearchProfiles {
  import opened Values
  import opened Text
  import opened Types
  import opened Upstream
  import opened TtlCache
  import opened Ordering

  /** Queries shorter than this are answered with no results and no request. */
  const MinQueryLength: nat := 3

  /** Queries up to this length are treated as exact handles and skip the search cache. */
  const ExactProbeMaxLength: nat := 20

  /** At most this many entries are returned. */
  const PageSize: nat := 10

  /**
    An entry under construction, with the raw `username` of the value it came
    from (which may be missing) next to the entry itself.
   */
  datatype Draft = Draft(name: Option<string>, entry: SearchResult)

  /** The entry's username is the draft's name, or "" when the name is missing. */
  predicate WellFormed(d: Draft) {
    d.entry.username == d.name.GetOr("")
  }

  /** The mapping of one v1 value to an entry. */
  function MapRecord(v: V1Record, draw: real): (d: Draft)
    ensures WellFormed(d)
  {
    var pid := OptNumOr(v.profileId, 0);
    Draft(v.username, SearchResult(
      id := if pid != 0 then ProfileId(pid) else Drawn(draw),
      username := v.username.GetOr(""),
      displayName := v.name.GetOr(""),
      avatarUrl := v.avatar.GetOr(""),
      score := V1Score(v),
      userkeys := if StrTruthy(v.userkey) then [v.userkey.value] else [],
      xpTotal := 0,
      xpStreakDays := 0,
      description := OptStrOr(v.description, ""),
      primaryAddress := OptStrOr(v.primaryAddress, "")))
  }

  function MapRecords(values: seq<V1Record>, draw: nat -> real): (ds: seq<Draft>)
    ensures |ds| == |values|
    ensures forall k :: 0 <= k < |values| ==> ds[k] == MapRecord(values[k], draw(k))
  {
    seq(|values|, k requires 0 <= k < |values| => MapRecord(values[k], draw(k)))
  }

  /** Some draft of `s` carries the name `n`. */
  predicate HasName(s: seq<Draft>, n: Option<string>) {
    exists k :: 0 <= k < |s| && s[k].name == n
  }

  /** The index of the first draft named `name`, or -1 (`findIndex`). */
  function FindName(acc: seq<Draft>, name: Option<string>): (i: int)
    ensures -1 <= i < |acc|
    ensures i >= 0 ==> acc[i].name == name && forall k :: 0 <= k < i ==> acc[k].name != name
    ensures i == -1 <==> !HasName(acc, name)
  {
    if |acc| == 0 then -1
    else if acc[0].name == name then 0
    else
      var j := FindName(acc[1..], name);
      assert forall k :: 1 <= k < |acc| ==> acc[k] == acc[1..][k - 1];
      if j == -1 then -1 else j + 1
  }

  /**
    One step of the de-duplicating `reduce`: a new name is appended; a
    repeated name replaces the kept draft only when the newcomer has a truthy
    id and the kept one does not.
   */
  function DedupStep(acc: seq<Draft>, d: Draft): seq<Draft> {
    var i := FindName(acc, d.name);
    if i == -1 then acc + [d]
    else if IdTruthy(d.entry.id) && !IdTruthy(acc[i].entry.id) then acc[i := d]
    else acc
  }

  lemma DedupStepNames(acc: seq<Draft>, d: Draft)
    ensures forall n :: HasName(DedupStep(acc, d), n) <==> HasName(acc, n) || n == d.name
  {
    var r := DedupStep(acc, d);
    var i := FindName(acc, d.name);
    forall n
      ensures HasName(r, n) <==> HasName(acc, n) || n == d.name
    {
      if i == -1 {
        assert r[|acc|] == d;
        if HasName(acc, n) {
          var k :| 0 <= k < |acc| && acc[k].name == n;
          assert r[k] == acc[k];
        }
        if HasName(r, n) {
          var k :| 0 <= k < |r| && r[k].name == n;
          if k < |acc| {
            assert r[k] == acc[k];
          }
        }
      } else {
        assert forall k :: 0 <= k < |acc| ==> r[k].name == acc[k].name;
      }
    }
  }

  /**
    De-duplication by username: the result has pairwise distinct names, has
    exactly the names of the input, takes every draft from the input and is
    no longer than it.
   */
  function Dedup(s: seq<Draft>): (r: seq<Draft>)
    ensures |r| <= |s|
    ensures forall i, j :: 0 <= i < j < |r| ==> r[i].name != r[j].name
    ensures forall x :: x in r ==> x in s
    ensures forall n :: HasName(r, n) <==> HasName(s, n)
  {
    if |s| == 0 then []
    else
      var p := s[..|s| - 1];
      var d := s[|s| - 1];
      var acc := Dedup(p);
      assert forall k :: 0 <= k < |p| ==> p[k] == s[k];
      assert forall x :: x in p ==> x in s;
      assert forall n :: HasName(p, n) ==> HasName(s, n);
      assert forall n :: HasName(s, n) ==> HasName(p, n) || n == d.name;
      DedupStepNames(acc, d);
      DedupStep(acc, d)
  }

  /**
    Whenever some input draft with a given name has a truthy id, the kept
    draft of that name has a truthy id too.
   */
  lemma {:induction false} DedupPrefersProfileId(s: seq<Draft>, k: int)
    requires 0 <= k < |s| && IdTruthy(s[k].entry.id)
    ensures exists j :: 0 <= j < |Dedup(s)| && Dedup(s)[j].name == s[k].name && IdTruthy(Dedup(s)[j].entry.id)
  {
    var p := s[..|s| - 1];
    var d := s[|s| - 1];
    var acc := Dedup(p);
    var r := Dedup(s);
    assert r == DedupStep(acc, d);
    var i := FindName(acc, d.name);
    if k == |s| - 1 {
      if i == -1 {
        assert r[|acc|] == d;
      } else if !IdTruthy(acc[i].entry.id) {
        assert r[i] == d;
      } else {
        assert r[i] == acc[i];
      }
    } else {
      assert p[k] == s[k];
      DedupPrefersProfileId(p, k);
      var j :| 0 <= j < |acc| && acc[j].name == s[k].name && IdTruthy(acc[j].entry.id);
      assert r[j] == acc[j];
    }
  }

  /** The drafts of `s` whose name does not occur earlier in `s`, in order. */
  function FirstOccurrences(s: seq<Draft>): (r: seq<Draft>)
  {
    if |s| == 0 then []
    else
      var p := s[..|s| - 1];
      if HasName(p, s[|s| - 1].name) then FirstOccurrences(p) else FirstOccurrences(p) + [s[|s| - 1]]
  }

  /**
    When every draft has a truthy id no replacement ever happens, and the
    de-duplication keeps exactly the first draft of every name.
   */
  lemma {:induction false} DedupKeepsFirstWhenIdsTruthy(s: seq<Draft>)
    requires forall k :: 0 <= k < |s| ==> IdTruthy(s[k].entry.id)
    ensures Dedup(s) == FirstOccurrences(s)
  {
    if |s| > 0 {
      var p := s[..|s| - 1];
      var d := s[|s| - 1];
      assert forall k :: 0 <= k < |p| ==> p[k] == s[k];
      DedupKeepsFirstWhenIdsTruthy(p);
      var acc := Dedup(p);
      var i := FindName(acc, d.name);
      if i != -1 {
        assert acc[i] in p;
        var m :| 0 <= m < |p| && p[m] == acc[i];
        assert IdTruthy(acc[i].entry.id);
      }
    }
  }

  /** The entries of a sequence of drafts. */
  function Entries(ds: seq<Draft>): (r: seq<SearchResult>)
    ensures |r| == |ds|
    ensures forall i :: 0 <= i < |ds| ==> r[i] == ds[i].entry
  {
    seq(|ds|, i requires 0 <= i < |ds| => ds[i].entry)
  }

  /** The username equals the query, ignoring case. */
  predicate IsExact(query: string, p: SearchResult) {
    Lower(p.username) == Lower(query)
  }

  /**
    The filter: the username equals or starts with the query, or the display
    name starts with it, or the description contains it, all ignoring case.
   */
  predicate Matches(query: string, p: SearchResult) {
    var q := Lower(query);
    || Lower(p.username) == q
    || StartsWith(Lower(p.username), q)
    || StartsWith(Lower(p.displayName), q)
    || Contains(Lower(p.description), q)
  }

  /** The order-preserving `filter` by `Matches`. */
  function Filter(query: string, s: seq<SearchResult>): (r: seq<SearchResult>)
    ensures |r| <= |s|
    ensures forall x :: x in r <==> x in s && Matches(query, x)
  {
    if |s| == 0 then []
    else (if Matches(query, s[0]) then [s[0]] else []) + Filter(query, s[1..])
  }

  function Username(p: SearchResult): string {
    p.username
  }

  /** Filtering keeps distinct usernames distinct. */
  lemma {:induction false} FilterDistinct(query: string, s: seq<SearchResult>)
    requires DistinctBy(s, Username)
    ensures DistinctBy(Filter(query, s), Username)
  {
    if |s| > 0 {
      var t := s[1..];
      assert DistinctBy(t, Username);
      FilterDistinct(query, t);
      var ft := Filter(query, t);
      if Matches(query, s[0]) {
        var r := Filter(query, s);
        assert r == [s[0]] + ft;
        forall i, j | 0 <= i < j < |r|
          ensures r[i].username != r[j].username
        {
          assert r[j] == ft[j - 1];
          if i == 0 {
            assert ft[j - 1] in t;
            var m :| 0 <= m < |t| && t[m] == ft[j - 1];
            assert t[m] == s[m + 1];
          } else {
            assert r[i] == ft[i - 1];
          }
        }
      } else {
        assert Filter(query, s) == ft;
      }
    }
  }

  /**
    The rank of an entry under the comparator: exact matches first; among
    exact matches, a truthy id first; then by score, highest first.
   */
  function EntryRank(query: string, p: SearchResult): Rank {
    var exact := IsExact(query, p);
    Rank(if exact then 0 else 1, if exact && !IdTruthy(p.id) then 1 else 0, -(p.score as int))
  }

  function RankBy(query: string): SearchResult -> Rank {
    p => EntryRank(query, p)
  }

  /** The comparator passed to `sort`: negative when `a` goes first. */
  function Compare(query: string, a: SearchResult, b: SearchResult): int {
    var aExact := IsExact(query, a);
    var bExact := IsExact(query, b);
    if aExact && !bExact then -1
    else if !aExact && bExact then 1
    else if aExact && bExact && IdTruthy(a.id) && !IdTruthy(b.id) then -1
    else if aExact && bExact && !IdTruthy(a.id) && IdTruthy(b.id) then 1
    else b.score - a.score
  }

  /** The comparator and the rank order agree, in both directions and on ties. */
  lemma ComparatorIsRank(query: string, a: SearchResult, b: SearchResult)
    ensures Compare(query, a, b) < 0 <==> Before(EntryRank(query, a), EntryRank(query, b))
    ensures Compare(query, a, b) > 0 <==> Before(EntryRank(query, b), EntryRank(query, a))
    ensures Compare(query, a, b) == 0 <==> EntryRank(query, a) == EntryRank(query, b)
  {
  }

  /** `slice(0, n)`. */
  function Take<T>(s: seq<T>, n: nat): (r: seq<T>)
    ensures |r| <= n && |r| <= |s|
    ensures r == s[..|r|]
    ensures |s| <= n ==> r == s
  {
    if |s| <= n then s else s[..n]
  }

  /**
    The ranked page for a non-empty v1 result, or `None` when some
    de-duplicated value has no username: the filter then throws, the error is
    caught and the search answers nothing.
   */
  function Rankings(query: string, values: seq<V1Record>, draw: nat -> real): Option<seq<SearchResult>> {
    var ds := Dedup(MapRecords(values, draw));
    if HasName(ds, None) then None
    else Some(Take(Sort(Filter(query, Entries(ds)), RankBy(query)), PageSize))
  }

  /** The matching entries a ranking chooses from. */
  function Candidates(query: string, values: seq<V1Record>, draw: nat -> real): seq<SearchResult> {
    Filter(query, Entries(Dedup(MapRecords(values, draw))))
  }

  /** The ranking fails exactly when some upstream value has no username. */
  lemma MissingUsernameFails(query: string, values: seq<V1Record>, draw: nat -> real)
    ensures Rankings(query, values, draw).None? <==> exists k :: 0 <= k < |values| && values[k].username.None?
  {
    var ms := MapRecords(values, draw);
    if exists k :: 0 <= k < |values| && values[k].username.None? {
      var k :| 0 <= k < |values| && values[k].username.None?;
      assert ms[k].name == None;
    }
  }

  /** The candidates of a successful ranking have pairwise distinct usernames. */
  lemma CandidatesDistinct(query: string, values: seq<V1Record>, draw: nat -> real)
    requires Rankings(query, values, draw).Some?
    ensures DistinctBy(Candidates(query, values, draw), Username)
  {
    var ms := MapRecords(values, draw);
    var ds := Dedup(ms);
    var es := Entries(ds);
    forall i, j | 0 <= i < j < |es|
      ensures es[i].username != es[j].username
    {
      assert ds[i] in ms && ds[j] in ms;
      var a :| 0 <= a < |ms| && ms[a] == ds[i];
      var b :| 0 <= b < |ms| && ms[b] == ds[j];
      assert WellFormed(ds[i]) && WellFormed(ds[j]);
      assert ds[i].name.Some? && ds[j].name.Some?;
    }
    FilterDistinct(query, es);
  }

  /**
    What a successful ranking returns: at most ten entries with distinct
    usernames, each one a mapped upstream value that matches the query; exact
    matches before the rest; among exact matches an entry with a profile id
    before one without; otherwise higher scores first; and a matching entry is
    left out only when the page is full of entries that rank no later.
   */
  lemma RankingsProperties(query: string, values: seq<V1Record>, draw: nat -> real)
    requires Rankings(query, values, draw).Some?
    ensures var r := Rankings(query, values, draw).value;
      && |r| <= PageSize
      && (forall i, j :: 0 <= i < j < |r| ==> r[i].username != r[j].username)
      && (forall i :: 0 <= i < |r| ==> Matches(query, r[i]))
      && (forall i :: 0 <= i < |r| ==> exists k :: 0 <= k < |values| && r[i] == MapRecord(values[k], draw(k)).entry)
      && (forall i, j :: 0 <= i < j < |r| && IsExact(query, r[j]) ==> IsExact(query, r[i]))
      && (forall i, j :: 0 <= i < j < |r| && IsExact(query, r[i]) && IsExact(query, r[j]) && IdTruthy(r[j].id)
            ==> IdTruthy(r[i].id))
      && (forall i, j :: 0 <= i < j < |r| && IsExact(query, r[i]) == IsExact(query, r[j])
            && (IsExact(query, r[i]) ==> IdTruthy(r[i].id) == IdTruthy(r[j].id))
            ==> r[i].score >= r[j].score)
      && (forall p :: p in Candidates(query, values, draw) && p !in r
            ==> |r| == PageSize && forall i :: 0 <= i < |r| ==> !Before(EntryRank(query, p), EntryRank(query, r[i])))
  {
    var ms := MapRecords(values, draw);
    var ds := Dedup(ms);
    var m := Candidates(query, values, draw);
    var key := RankBy(query);
    var srt := Sort(m, key);
    var r := Take(srt, PageSize);
    assert r == Rankings(query, values, draw).value;
    SortSorted(m, key);
    SortSameElements(m, key);
    CandidatesDistinct(query, values, draw);
    SortDistinct(m, key, Username);
    forall i | 0 <= i < |r|
      ensures Matches(query, r[i])
      ensures exists k :: 0 <= k < |values| && r[i] == MapRecord(values[k], draw(k)).entry
    {
      assert r[i] == srt[i];
      assert r[i] in m;
      var e :| 0 <= e < |Entries(ds)| && Entries(ds)[e] == r[i];
      assert ds[e] in ms;
      var k :| 0 <= k < |ms| && ms[k] == ds[e];
    }
    forall i, j | 0 <= i < j < |r|
      ensures r[i].username != r[j].username
      ensures !Before(EntryRank(query, r[j]), EntryRank(query, r[i]))
    {
      assert r[i] == srt[i] && r[j] == srt[j];
    }
    forall p | p in m && p !in r
      ensures |r| == PageSize && forall i :: 0 <= i < |r| ==> !Before(EntryRank(query, p), EntryRank(query, r[i]))
    {
      assert p in srt;
      var n :| 0 <= n < |srt| && srt[n] == p;
      forall i | 0 <= i < |r|
        ensures !Before(EntryRank(query, p), EntryRank(query, r[i]))
      {
        assert r[i] == srt[i];
      }
    }
  }

  /** What one call returns, what the search cache holds afterwards, and whether a request went out. */
  datatype SearchOutcome = SearchOutcome(results: seq<SearchResult>, cache: Cache<seq<SearchResult>>, requested: bool)

  /** Only queries longer than twenty characters read and write the search cache. */
  predicate UsesCache(query: string) {
    |query| > ExactProbeMaxLength
  }

  /**
    One call of `searchProfiles`: `reply` is what the v1 search answers if it
    is asked, `now` is the clock.
   */
  function Search(query: string, cache: Cache<seq<SearchResult>>, now: int, reply: Reply<V1Body>,
                  draw: nat -> real): (o: SearchOutcome)
    ensures |query| < MinQueryLength ==> o == SearchOutcome([], cache, false)
    ensures o.requested <==> |query| >= MinQueryLength
                             && !(UsesCache(query) && Get(cache, SearchKey(query), now, SearchCacheDuration).Some?)
    ensures !UsesCache(query) ==> o.cache == cache
    ensures o.cache != cache ==> o.requested && o.cache == Put(cache, SearchKey(query), o.results, now)
    ensures o.requested && !(reply.Delivered? && HasResults(reply.body)) ==> o.results == [] && o.cache == cache
  {
    if |query| < MinQueryLength then SearchOutcome([], cache, false)
    else
      var hit := if UsesCache(query) then Get(cache, SearchKey(query), now, SearchCacheDuration) else None;
      if hit.Some? then SearchOutcome(hit.value, cache, false)
      else if !(reply.Delivered? && HasResults(reply.body)) then SearchOutcome([], cache, true)
      else match Rankings(query, reply.body.values.value, draw)
        case None => SearchOutcome([], cache, true)
        case Some(r) =>
          SearchOutcome(r, if UsesCache(query) then Put(cache, SearchKey(query), r, now) else cache, true)
  }

  /** Every stored page holds at most ten entries. */
  ghost predicate PagesBounded(cache: Cache<seq<SearchResult>>) {
    forall k :: k in cache ==> |cache[k].data| <= PageSize
  }

  /** The search never answers more than ten entries, and keeps the cache's pages that small. */
  lemma SearchPageBound(query: string, cache: Cache<seq<SearchResult>>, now: int, reply: Reply<V1Body>,
                        draw: nat -> real)
    requires PagesBounded(cache)
    ensures |Search(query, cache, now, reply, draw).results| <= PageSize
    ensures PagesBounded(Search(query, cache, now, reply, draw).cache)
  {
    var o := Search(query, cache, now, reply, draw);
    if o.requested && reply.Delivered? && HasResults(reply.body) {
      var rk := Rankings(query, reply.body.values.value, draw);
      if rk.Some? {
        RankingsProperties(query, reply.body.values.value, draw);
      }
    }
  }

  /**
    A successful search for a long query is answered from the cache by any
    query equal to it ignoring case, for the next thirty seconds, without a
    request.
   */
  lemma RepeatLongQueryHitsCache(query: string, again: string, cache: Cache<seq<SearchResult>>, now: int,
                                 later: int, reply: Reply<V1Body>, reply2: Reply<V1Body>, draw: nat -> real,
                                 draw2: nat -> real)
    requires UsesCache(query) && SameIgnoringCase(query, again)
    requires Search(query, cache, now, reply, draw).requested
    requires reply.Delivered? && HasResults(reply.body)
    requires Rankings(query, reply.body.values.value, draw).Some?
    requires now <= later < now + SearchCacheDuration
    ensures var first := Search(query, cache, now, reply, draw);
            var second := Search(again, first.cache, later, reply2, draw2);
            && !second.requested
            && second.results == first.results
            && second.cache == first.cache
  {
  }

  /** Queries of three to twenty characters never touch the cache, so their answer ignores it. */
  lemma ShortQueryIgnoresCache(query: string, c1: Cache<seq<SearchResult>>, c2: Cache<seq<SearchResult>>,
                               now: int, reply: Reply<V1Body>, draw: nat -> real)
    requires !UsesCache(query)
    ensures Search(query, c1, now, reply, draw).results == Search(query, c2, now, reply, draw).results
    ensures Search(query, c1, now, reply, draw).requested == (|query| >= MinQueryLength)
  {
  }
}

=== FILE: selection.dfy ===
/**
  The keyboard selection index shared by both search widgets: -1 means no
  row is highlighted, ArrowDown moves down and stops at the last row, ArrowUp
  moves up and falls back to -1 from the first row.
 */
module SelectionIndex {

  /** The index is -1 or a row of a list of `len` rows. */
  predicate InRange(idx: int, len: nat) {
    -1 <= idx < len
  }

  /** ArrowDown: one row further down, unless already on the last row. */
  function Down(idx: int, len: nat): int {
    if idx < len - 1 then idx + 1 else idx
  }

  /** ArrowUp: one row further up; from the first row (or above it) back to -1. */
  function Up(idx: int): int {
    if idx > 0 then idx - 1 else -1
  }

  /** Both moves keep the index in range, and neither leaves a list without rows. */
  lemma MovesKeepInRange(idx: int, len: nat)
    requires InRange(idx, len)
    ensures InRange(Down(idx, len), len) && InRange(Up(idx), len)
    ensures len == 0 ==> Down(idx, len) == -1 && Up(idx) == -1
  {
  }

  /**
    The moves undo each other inside the list: down then up returns to any
    index above the last row, and up then down returns to any row.
   */
  lemma MovesInverse(idx: int, len: nat)
    ensures -1 <= idx < len - 1 ==> Up(Down(idx, len)) == idx
    ensures 0 <= idx < len ==> Down(Up(idx), len) == idx
  {
  }

  /** The index after `n` presses of ArrowDown. */
  function DownTimes(idx: int, len: nat, n: nat): int {
    if n == 0 then idx else Down(DownTimes(idx, len, n - 1), len)
  }

  /** From no selection, `n` presses of ArrowDown highlight row `n - 1`, stopping at the last row. */
  lemma {:induction false} DownFromNone(len: nat, n: nat)
    requires len > 0
    ensures DownTimes(-1, len, n) == if n - 1 < len - 1 then n - 1 else len - 1
  {
    if n > 0 {
      DownFromNone(len, n - 1);
    }
  }
}

=== FILE: simple_user_test.dfy ===
/**
  The diagnostic page that fetches one user by a typed name: it ignores a
  blank name, empties the cache before every fetch so that the network is
  always consulted, and shows a record with fallbacks for every field.

  As on the profile search page, the data layer's resolution always yields a
  user, so the page's error branch is never taken in this model.
 */
module SimpleUserTest {
  import opened Values
  import opened Text
  import opened Types
  import opened TtlCache
  import opened Upstream
  import opened ProfileResolver
  import ProfileSearch

  /** The record the page shows. */
  datatype TestData = TestData(
    score: nat,
    level: string,
    xp: nat,
    username: string,
    displayName: string,
    avatar: string,
    bio: string,
    twitterUsername: string)

  /** The shown record for user `u` fetched under the typed name. */
  function Process(u: EthosUser, typed: string): TestData {
    TestData(
      score := u.score,
      level := OptStrOr(u.level, "neutral"),
      xp := u.xp,
      username := OptStrOr(u.username, typed),
      displayName := OptStrOr(u.displayName, OptStrOr(u.username, typed)),
      avatar := u.avatar,
      bio := u.bio,
      twitterUsername := OptStrOr(u.twitterUsername, OptStrOr(u.username, typed)))
  }

  /** The first non-empty name of a list, or "" when there is none. */
  function FirstNonEmpty(names: seq<string>): (r: string)
    ensures r == "" <==> forall i :: 0 <= i < |names| ==> names[i] == ""
    ensures r != "" ==> r in names
  {
    if |names| == 0 then ""
    else if names[0] != "" then names[0]
    else
      var r := FirstNonEmpty(names[1..]);
      assert forall i :: 1 <= i < |names| ==> names[i] == names[1..][i - 1];
      r
  }

  /**
    The display name and the handle each take the first non-empty of their
    own field, the username, and the typed name, a missing field counting as
    empty; with a typed name neither is ever empty.
   */
  lemma NameFallbackChains(u: EthosUser, typed: string)
    ensures Process(u, typed).displayName == FirstNonEmpty([u.displayName.GetOr(""), u.username.GetOr(""), typed])
    ensures Process(u, typed).twitterUsername == FirstNonEmpty([u.twitterUsername.GetOr(""), u.username.GetOr(""), typed])
    ensures Process(u, typed).username == FirstNonEmpty([u.username.GetOr(""), typed])
    ensures typed != "" ==>
      Process(u, typed).displayName != "" && Process(u, typed).twitterUsername != "" && Process(u, typed).username != ""
  {
    var name := u.username.GetOr("");
    assert [u.displayName.GetOr(""), name, typed][1..] == [name, typed];
    assert [u.twitterUsername.GetOr(""), name, typed][1..] == [name, typed];
    assert [name, typed][1..] == [typed];
    assert [typed][1..] == [];
    assert FirstNonEmpty([typed]) == typed;
    assert FirstNonEmpty([name, typed]) == OptStrOr(u.username, typed);
  }

  /**
    Score and XP are shown as fetched, with 0 for none; the level, biography
    and avatar fall back to "neutral", "" and ""; level and biography are
    shown exactly as on the profile search page.
   */
  lemma ProcessDefaults(u: EthosUser, typed: string, p: SearchResult)
    ensures var d := Process(u, typed);
      && d.score == u.score && d.xp == u.xp
      && d.level == (if StrTruthy(u.level) then u.level.value else "neutral")
      && d.avatar == u.avatar && d.bio == u.bio
      && d.level == ProfileSearch.Merge(u, p).level
      && d.bio == ProfileSearch.Merge(u, p).bio
  {
  }

  datatype TestState = TestState(username: string, userData: Option<TestData>, loading: bool, error: string)

  /** The button is disabled while loading or while the trimmed name is blank. */
  function ButtonDisabled(s: TestState): bool {
    s.loading || Trim(s.username) == []
  }

  /** The page after a fetch, the cache afterwards, and whether the network was consulted. */
  datatype FetchOutcome = FetchOutcome(state: TestState, cache: Cache<EthosUser>, searched: bool)

  /**
    `handleFetchUser`: a blank name does nothing; otherwise the cache is
    emptied and the typed name, untrimmed, is resolved and shown.
   */
  function FetchUser(s: TestState, cache: Cache<EthosUser>, now: int, search: Reply<V1Body>,
                     tier: Reply<Option<string>>, v2: Reply<V2Body>, noise: string, draws: MockDraws): (r: FetchOutcome)
    ensures Trim(s.username) == [] ==> r == FetchOutcome(s, cache, false)
    ensures Trim(s.username) != [] ==> r.state.username == s.username && !r.state.loading && r.state.error == "" && r.state.userData.Some?
  {
    if Trim(s.username) == [] then FetchOutcome(s, cache, false)
    else
      var res := Resolve(Clear(), s.username, now, search, tier, v2, noise, draws);
      FetchOutcome(s.(userData := Some(Process(res.user, s.username)), loading := false, error := ""), res.cache, res.searched)
  }

  /**
    A fetch of a non-blank name always goes to the network, whatever was
    cached, and leaves exactly one entry: the user under the typed name.
   */
  lemma FetchBypassesCache(s: TestState, cache: Cache<EthosUser>, now: int, search: Reply<V1Body>,
                           tier: Reply<Option<string>>, v2: Reply<V2Body>, noise: string, draws: MockDraws)
    requires Trim(s.username) != []
    ensures var r := FetchUser(s, cache, now, search, tier, v2, noise, draws);
            var res := Resolve(Clear(), s.username, now, search, tier, v2, noise, draws);
      && r.searched
      && r.cache.Keys == {ProfileKey(s.username)}
      && r.state.userData == Some(Process(res.user, s.username))
  {
    ClearForcesSearch(s.username, now, search, tier, v2, noise, draws);
  }

  /** The result of a fetch does not depend on what was cached before it. */
  lemma FetchIgnoresPriorCache(s: TestState, c1: Cache<EthosUser>, c2: Cache<EthosUser>, now: int, search: Reply<V1Body>,
                               tier: Reply<Option<string>>, v2: Reply<V2Body>, noise: string, draws: MockDraws)
    requires Trim(s.username) != []
    ensures FetchUser(s, c1, now, search, tier, v2, noise, draws).state == FetchUser(s, c2, now, search, tier, v2, noise, draws).state
  {
  }

  /** An enabled button never triggers the blank-name no-op, and a disabled one when not loading guards only that case. */
  lemma EnabledButtonFetches(s: TestState, cache: Cache<EthosUser>, now: int, search: Reply<V1Body>,
                             tier: Reply<Option<string>>, v2: Reply<V2Body>, noise: string, draws: MockDraws)
    ensures !ButtonDisabled(s) ==> FetchUser(s, cache, now, search, tier, v2, noise, draws).searched
    ensures ButtonDisabled(s) && !s.loading ==> FetchUser(s, cache, now, search, tier, v2, noise, draws) == FetchOutcome(s, cache, false)
  {
    if !ButtonDisabled(s) {
      FetchBypassesCache(s, cache, now, search, tier, v2, noise, draws);
    }
  }
}

=== FILE: text.dfy ===
/**
  The string operations the application uses: `toLowerCase`, `toUpperCase` of
  one character, `trim`, `startsWith` and `includes`.

  Case mapping covers the ASCII letters only; every other character maps to
  itself, where JavaScript's full Unicode mapping would change some of them
  (and a few, such as U+0130, into two characters). A string is a sequence
  of code points, so its length is not JavaScript's count of UTF-16 code
  units for characters outside the Basic Multilingual Plane. `trim` removes
  exactly the characters ECMAScript classes as WhiteSpace or LineTerminator.
 */
module Text {

  predicate IsAsciiUpper(c: char) { 'A' <= c <= 'Z' }

  predicate IsAsciiLower(c: char) { 'a' <= c <= 'z' }

  predicate IsAsciiDigit(c: char) { '0' <= c <= '9' }

  predicate IsAsciiAlnum(c: char) { IsAsciiUpper(c) || IsAsciiLower(c) || IsAsciiDigit(c) }

  function LowerChar(c: char): char {
    if IsAsciiUpper(c) then (c as int + 32) as char else c
  }

  function UpperChar(c: char): char {
    if IsAsciiLower(c) then (c as int - 32) as char else c
  }

  /** `s.toLowerCase()` on the ASCII letters: character by character, so the length is kept. */
  function Lower(s: string): (r: string)
    ensures |r| == |s|
    ensures forall i :: 0 <= i < |s| ==> r[i] == LowerChar(s[i])
  {
    seq(|s|, i requires 0 <= i < |s| => LowerChar(s[i]))
  }

  /** Lowering twice is lowering once. */
  lemma LowerIdempotent(s: string)
    ensures Lower(Lower(s)) == Lower(s)
  {
    assert forall i :: 0 <= i < |s| ==> Lower(Lower(s))[i] == Lower(s)[i];
  }

  /** Lowering distributes over concatenation. */
  lemma LowerAppend(a: string, b: string)
    ensures Lower(a + b) == Lower(a) + Lower(b)
  {
    assert forall i :: 0 <= i < |a + b| ==> Lower(a + b)[i] == (Lower(a) + Lower(b))[i];
  }

  /** Case-insensitive equality, as `a.toLowerCase() === b.toLowerCase()`. */
  predicate SameIgnoringCase(a: string, b: string) {
    Lower(a) == Lower(b)
  }

  /** The characters `String.prototype.trim` removes (ECMAScript WhiteSpace and LineTerminator). */
  predicate IsJsSpace(c: char) {
    c in {'\U{0009}', '\U{000A}', '\U{000B}', '\U{000C}', '\U{000D}', '\U{0020}',
          '\U{00A0}', '\U{1680}', '\U{2000}', '\U{2001}', '\U{2002}', '\U{2003}',
          '\U{2004}', '\U{2005}', '\U{2006}', '\U{2007}', '\U{2008}', '\U{2009}',
          '\U{200A}', '\U{2028}', '\U{2029}', '\U{202F}', '\U{205F}', '\U{3000}',
          '\U{FEFF}'}
  }

  function TrimStart(s: string): (r: string)
    ensures |r| <= |s| && r == s[|s| - |r|..]
    ensures forall i :: 0 <= i < |s| - |r| ==> IsJsSpace(s[i])
    ensures r == [] || !IsJsSpace(r[0])
  {
    if |s| > 0 && IsJsSpace(s[0]) then TrimStart(s[1..]) else s
  }

  function TrimEnd(s: string): (r: string)
    ensures |r| <= |s| && r == s[..|r|]
    ensures forall i :: |r| <= i < |s| ==> IsJsSpace(s[i])
    ensures r == [] || !IsJsSpace(r[|r| - 1])
  {
    if |s| > 0 && IsJsSpace(s[|s| - 1]) then TrimEnd(s[..|s| - 1]) else s
  }

  /** `s.trim()`: the longest slice of `s` with no space at either end, whatever surrounded it being space. */
  function Trim(s: string): (r: string)
    ensures exists i, j :: 0 <= i <= j <= |s| && r == s[i..j]
                && (forall k :: 0 <= k < i ==> IsJsSpace(s[k]))
                && (forall k :: j <= k < |s| ==> IsJsSpace(s[k]))
    ensures r == [] || (!IsJsSpace(r[0]) && !IsJsSpace(r[|r| - 1]))
  {
    var t := TrimStart(s);
    var r := TrimEnd(t);
    var i := |s| - |t|;
    var j := i + |r|;
    assert r == s[i..j];
    r
  }

  /** A string trims to "" exactly when every character is a space. */
  lemma TrimEmptyIff(s: string)
    ensures Trim(s) == [] <==> forall k :: 0 <= k < |s| ==> IsJsSpace(s[k])
  {
    var i, j :| 0 <= i <= j <= |s| && Trim(s) == s[i..j]
                && (forall k :: 0 <= k < i ==> IsJsSpace(s[k]))
                && (forall k :: j <= k < |s| ==> IsJsSpace(s[k]));
    if Trim(s) != [] {
      assert Trim(s)[0] == s[i];
    }
  }

  /** Trimming a trimmed string changes nothing. */
  lemma TrimIdempotent(s: string)
    ensures Trim(Trim(s)) == Trim(s)
  {
    var t := Trim(s);
    if t != [] {
      assert TrimStart(t) == t;
      assert TrimEnd(t) == t;
    }
  }

  /** `s.startsWith(p)`. */
  predicate StartsWith(s: string, p: string) {
    |p| <= |s| && s[..|p|] == p
  }

  /** `s.includes(p)`: `p` occurs somewhere in `s`. */
  predicate Contains(s: string, p: string)
    decreases |s|
  {
    StartsWith(s, p) || (|s| > 0 && Contains(s[1..], p))
  }

  /** `p` occurs in `s` at offset `i`. */
  predicate OccursAt(s: string, p: string, i: int) {
    0 <= i <= |s| - |p| && s[i..i + |p|] == p
  }

  /** `Contains` holds exactly when `p` occurs at some offset. */
  lemma {:induction false} ContainsIff(s: string, p: string)
    ensures Contains(s, p) <==> exists i :: OccursAt(s, p, i)
    decreases |s|
  {
    if |s| > 0 {
      ContainsIff(s[1..], p);
      if StartsWith(s, p) {
        assert OccursAt(s, p, 0);
      }
      if exists i :: OccursAt(s, p, i) {
        var i :| OccursAt(s, p, i);
        if i > 0 {
          assert OccursAt(s[1..], p, i - 1) by {
            assert s[1..][i - 1..i - 1 + |p|] == s[i..i + |p|];
          }
        }
      }
      if exists i :: OccursAt(s[1..], p, i) {
        var i :| OccursAt(s[1..], p, i);
        assert OccursAt(s, p, i + 1) by {
          assert s[1..][i..i + |p|] == s[i + 1..i + 1 + |p|];
        }
      }
    } else {
      if exists i :: OccursAt(s, p, i) {
        var i :| OccursAt(s, p, i);
        assert i == 0;
      }
      if p == [] {
        assert OccursAt(s, p, 0);
      }
    }
  }

  /** `String(n)` for a non-negative integer below 10^21: its decimal digits. */
  function DecimalString(n: nat): (r: string)
    ensures |r| > 0
    ensures forall i :: 0 <= i < |r| ==> IsAsciiDigit(r[i])
    decreases n
  {
    var d := ['0' + ((n % 10) as char)];
    if n < 10 then d else DecimalString(n / 10) + d
  }
}

=== FILE: types.dfy ===
/**
  The record shapes shared by the data layer and the components: the
  normalised user (`EthosUser`), its nested statistics, a typeahead entry
  (`SearchResult`) and the derived metrics (`UserMetrics`).

  Optional members of the source types are `Option`s. Vouch amounts, which
  the source carries as decimal strings of wei, are natural numbers here.
  The identity strings of a user (`username`, `displayName`,
  `twitterUsername`) are copied from the search record and may be
  `undefined`, so they are `Option`s. The other string members of a user
  are always defaulted to "" before they are stored.
 */
module Types {
  import opened Values

  /** Review counts by polarity. */
  datatype Polarity = Polarity(positive: nat, neutral: nat, negative: nat)

  datatype ReviewStats = ReviewStats(received: Option<Polarity>, given: Option<Polarity>)

  /** One direction of vouching: total amount in wei and number of vouches. */
  datatype VouchSide = VouchSide(amountWeiTotal: nat, count: nat)

  datatype VouchStats = VouchStats(given: Option<VouchSide>, received: Option<VouchSide>)

  datatype Stats = Stats(review: Option<ReviewStats>, vouch: Option<VouchStats>)

  /** The canonical user record. */
  datatype EthosUser = EthosUser(
    userkey: string,
    username: Option<string>,
    displayName: Option<string>,
    avatar: string,
    bio: string,
    twitterUsername: Option<string>,
    twitterFollowers: nat,
    twitterVerified: bool,
    score: nat,
    xp: nat,
    xpStreak: nat,
    level: Option<string>,
    stats: Option<Stats>)

  /** `id` of a typeahead entry: a profile id, or a `Math.random()` draw in [0, 1). */
  datatype EntryId = ProfileId(n: nat) | Drawn(r: real)

  /** Truthiness of an entry id. */
  predicate IdTruthy(id: EntryId) {
    match id
    case ProfileId(n) => n != 0
    case Drawn(r) => r != 0.0
  }

  /** A typeahead entry. */
  datatype SearchResult = SearchResult(
    id: EntryId,
    username: string,
    displayName: string,
    avatarUrl: string,
    score: nat,
    userkeys: seq<string>,
    xpTotal: nat,
    xpStreakDays: nat,
    description: string,
    primaryAddress: string)

  datatype ReviewBreakdown = ReviewBreakdown(total: nat, positive: nat, neutral: nat, negative: nat)

  /** Display metrics for one user; ETH amounts are exact rationals. */
  datatype UserMetrics = UserMetrics(
    score: nat,
    twitterFollowers: nat,
    yapsCount: nat,
    totalXp: nat,
    xpStreak: nat,
    reviewsReceived: ReviewBreakdown,
    reviewsGiven: nat,
    vouchesGiven: nat,
    vouchesReceived: nat,
    ethVouchedGiven: real,
    ethVouchedReceived: real,
    totalVotesCast: nat)

  /** 10^18, the number of wei in one ether. */
  const WeiPerEth: nat := 1_000_000_000_000_000_000

  /** `parseFloat(wei) / 1e18`, without the floating-point rounding. */
  function WeiToEth(wei: nat): real {
    wei as real / WeiPerEth as real
  }

  /** No wei is no ether, and converting back multiplies by 10^18. */
  lemma WeiToEthZero()
    ensures WeiToEth(0) == 0.0
  {
  }

  lemma WeiToEthScales(wei: nat)
    ensures WeiToEth(wei) * (WeiPerEth as real) == wei as real
  {
  }

  /** `stats?.review?.received?.<field> || 0` for the three polarities. */
  function ReceivedCounts(stats: Option<Stats>): Polarity {
    if stats.Some? && stats.value.review.Some? && stats.value.review.value.received.Some?
    then stats.value.review.value.received.value
    else Polarity(0, 0, 0)
  }

  /** `stats?.review?.given?.<field> || 0` for the three polarities. */
  function GivenCounts(stats: Option<Stats>): Polarity {
    if stats.Some? && stats.value.review.Some? && stats.value.review.value.given.Some?
    then stats.value.review.value.given.value
    else Polarity(0, 0, 0)
  }

  /** `stats?.vouch?.given`, or a zero side. */
  function VouchGiven(stats: Option<Stats>): VouchSide {
    if stats.Some? && stats.value.vouch.Some? && stats.value.vouch.value.given.Some?
    then stats.value.vouch.value.given.value
    else VouchSide(0, 0)
  }

  /** `stats?.vouch?.received`, or a zero side. */
  function VouchReceived(stats: Option<Stats>): VouchSide {
    if stats.Some? && stats.value.vouch.Some? && stats.value.vouch.value.received.Some?
    then stats.value.vouch.value.received.value
    else VouchSide(0, 0)
  }

  function PolaritySum(p: Polarity): nat {
    p.positive + p.neutral + p.negative
  }
}

=== FILE: upstream.dfy ===
/**
  The response shapes of the two upstream search endpoints the data layer
  reads: the fast v1 search (`/api/v1/search`) and the richer v2 user search
  (`/api/v2/users/search`). Every member may be missing.
 */
module Upstream {
  import opened Values
  import opened Types

  /** One value of a v1 search response. */
  datatype V1Record = V1Record(
    username: Option<string>,
    name: Option<string>,
    avatar: Option<string>,
    score: Option<nat>,
    userkey: Option<string>,
    description: Option<string>,
    profileId: Option<nat>,
    primaryAddress: Option<string>)

  /** A v1 search body: `{ ok, data: { values } }`. */
  datatype V1Body = V1Body(ok: bool, values: Option<seq<V1Record>>)

  /** One value of a v2 user-search response. */
  datatype V2Record = V2Record(
    username: Option<string>,
    twitterFollowers: Option<nat>,
    twitterVerified: Option<bool>,
    xpTotal: Option<nat>,
    xpStreakDays: Option<nat>,
    stats: Option<Stats>)

  /** A v2 user-search body: `{ values }`. */
  datatype V2Body = V2Body(values: Option<seq<V2Record>>)

  /** `data?.ok && data.data?.values && data.data.values.length > 0`. */
  predicate HasResults(body: V1Body) {
    body.ok && body.values.Some? && |body.values.value| > 0
  }

  /** `user.score || 0`. */
  function V1Score(v: V1Record): nat {
    OptNumOr(v.score, 0)
  }
}

=== FILE: user_input_form.dfy ===
/**
  The two-username form: validation, submission, swapping the names, and
  when the Compare button is disabled.
 */
module UserInputForm {
  import opened Values
  import opened Text

  const FirstRequired: string := "First username is required"
  const SecondRequired: string := "Second username is required"
  const TooShort: string := "Username must be at least 1 character"
  const MustDiffer: string := "Usernames must be different"

  /** The error shown under each field, if any. */
  datatype Errors = Errors(username1: Option<string>, username2: Option<string>)

  const NoErrors: Errors := Errors(None, None)

  datatype FormState = FormState(username1: string, username2: string, errors: Errors)

  /** The error of one field on its own: required when blank, "too short" when its trimmed length is below 1. */
  function FieldError(name: string, required: string): Option<string> {
    if Trim(name) == [] then Some(required)
    else if |Trim(name)| < 1 then Some(TooShort)
    else None
  }

  /**
    `validateForm`: each field's own error, except that equal names (ignoring
    case and surrounding space) put "must be different" on the second field
    in place of whatever it had.
   */
  function Validate(u1: string, u2: string): Errors {
    var e1 := FieldError(u1, FirstRequired);
    var e2 := FieldError(u2, SecondRequired);
    if Lower(Trim(u1)) == Lower(Trim(u2)) then Errors(e1, Some(MustDiffer)) else Errors(e1, e2)
  }

  predicate IsValid(e: Errors) {
    e.username1.None? && e.username2.None?
  }

  /** The form is valid exactly when both trimmed names are non-empty and differ ignoring case. */
  lemma ValidIff(u1: string, u2: string)
    ensures IsValid(Validate(u1, u2)) <==> Trim(u1) != [] && Trim(u2) != [] && !SameIgnoringCase(Trim(u1), Trim(u2))
  {
  }

  /**
    The "at least 1 character" message is never shown: a trimmed name that is
    not empty has length at least 1.
   */
  lemma TooShortUnreachable(u1: string, u2: string)
    ensures Validate(u1, u2).username1 != Some(TooShort)
    ensures Validate(u1, u2).username2 != Some(TooShort)
  {
  }

  /**
    Equal names, including two blank ones, always put "must be different" on
    the second field, overriding "required"; different names never do.
   */
  lemma DifferentOverrides(u1: string, u2: string)
    ensures Validate(u1, u2).username2 == Some(MustDiffer) <==> SameIgnoringCase(Trim(u1), Trim(u2))
    ensures Trim(u1) == [] && Trim(u2) == [] ==> Validate(u1, u2).username2 == Some(MustDiffer)
  {
  }

  /** The first field's error depends on the first field only. */
  lemma FirstErrorIsLocal(u1: string, a: string, b: string)
    ensures Validate(u1, a).username1 == Validate(u1, b).username1
    ensures Validate(u1, a).username1.Some? <==> Trim(u1) == []
  {
  }

  /** Validity does not depend on the order of the two names. */
  lemma ValiditySymmetric(u1: string, u2: string)
    ensures IsValid(Validate(u1, u2)) == IsValid(Validate(u2, u1))
  {
    ValidIff(u1, u2);
    ValidIff(u2, u1);
  }

  /** A submission: the form afterwards, and the pair handed to the comparison when there is one. */
  datatype Submission = Submission(state: FormState, compare: Option<(string, string)>)

  /** `handleSubmit`: validate, show the errors, and compare the trimmed names when there are none. */
  function Submit(s: FormState): (r: Submission)
    ensures r.state == s.(errors := Validate(s.username1, s.username2))
    ensures r.compare.Some? <==> IsValid(Validate(s.username1, s.username2))
    ensures r.compare.Some? ==> r.compare.value == (Trim(s.username1), Trim(s.username2))
  {
    var e := Validate(s.username1, s.username2);
    Submission(s.(errors := e), if IsValid(e) then Some((Trim(s.username1), Trim(s.username2))) else None)
  }

  /** What reaches the comparison is two non-blank names, trimmed, that differ ignoring case. */
  lemma SubmittedPairIsClean(s: FormState)
    requires Submit(s).compare.Some?
    ensures var (a, b) := Submit(s).compare.value;
      && a != [] && b != [] && !SameIgnoringCase(a, b)
      && Trim(a) == a && Trim(b) == b
  {
    ValidIff(s.username1, s.username2);
    TrimIdempotent(s.username1);
    TrimIdempotent(s.username2);
  }

  /** `handleSwapUsernames`: the names change places and the errors are cleared. */
  function Swap(s: FormState): (s': FormState)
    ensures s'.username1 == s.username2 && s'.username2 == s.username1 && s'.errors == NoErrors
  {
    FormState(s.username2, s.username1, NoErrors)
  }

  /** Swapping twice restores the names, and swapping never changes whether the form is valid. */
  lemma SwapInvolution(s: FormState)
    ensures Swap(Swap(s)) == s.(errors := NoErrors)
    ensures IsValid(Validate(Swap(s).username1, Swap(s).username2)) == IsValid(Validate(s.username1, s.username2))
  {
    ValiditySymmetric(s.username1, s.username2);
  }

  /** The Compare button is disabled while loading or while either trimmed name is blank. */
  function SubmitDisabled(s: FormState, loading: bool): bool {
    loading || Trim(s.username1) == [] || Trim(s.username2) == []
  }

  /**
    A disabled button (when not loading) guards only submissions that would
    fail, and a valid form always has an enabled button unless loading;
    equal names keep the button enabled and fail at submission.
   */
  lemma DisabledOnlyBlocksInvalid(s: FormState, loading: bool)
    ensures SubmitDisabled(s, loading) && !loading ==> Submit(s).compare.None?
    ensures Submit(s).compare.Some? ==> SubmitDisabled(s, loading) == loading
  {
    ValidIff(s.username1, s.username2);
  }
}

=== FILE: values.dfy ===
/**
  Optional values and the JavaScript truthiness rules the application relies on.

  The source reads loosely-typed JSON; a field may be missing (`undefined`),
  and almost every read is written `field || fallback`, which falls back both
  when the field is missing and when it holds a falsy value (`0`, `""`).
 */
module Values {

  /** A value that may be missing (`undefined` / `null` in the source). */
  datatype Option<+T> = None | Some(value: T) {

    /** The value, or `default` when missing. */
    function GetOr(default: T): T {
      match this
      case Some(v) => v
      case None => default
    }
  }

  /** A reply from an upstream HTTP endpoint: either a body or a thrown transport error. */
  datatype Reply<+T> = Delivered(body: T) | TransportError

  /** `s || d` for a string that is always present: only "" is falsy. */
  function StrOr(s: string, d: string): string {
    if s != "" then s else d
  }

  /** `o || d` for a string field that may be missing. */
  function OptStrOr(o: Option<string>, d: string): string {
    match o
    case Some(s) => StrOr(s, d)
    case None => d
  }

  /** `n || d` for a number that is always present: only 0 is falsy. */
  function NumOr(n: int, d: int): int {
    if n != 0 then n else d
  }

  /** `o || d` for a count field that may be missing. */
  function OptNumOr(o: Option<nat>, d: nat): nat {
    match o
    case Some(n) => if n != 0 then n else d
    case None => d
  }

  /** Truthiness of an optional string. */
  predicate StrTruthy(o: Option<string>) {
    o.Some? && o.value != ""
  }

  /** Truthiness of an optional number. */
  predicate NumTruthy(o: Option<nat>) {
    o.Some? && o.value != 0
  }
}
